=== FILE: README.md ===
# SDF archive codec — a Dafny model

`main.c` of soulfu-data-packer packs a directory into a SoulFu data file
(SDF) and unpacks one again. This project models that codec as pure
functions over byte sequences and proves what the format promises.

An archive has four parts:

- **Header.** 64 bytes: a line of 16 dashes, the magic string
  `SOULFU DATA FILE`, the count `<N> files` padded with spaces to 16 bytes,
  and another dash line.
- **Index table.** One 16-byte record per included file. Each record holds:
  - the payload offset, 4 bytes big-endian;
  - the type tag, written over the top byte of the big-endian size;
  - the 24-bit size;
  - the first eight stem characters, zero-padded.

  The record is then obfuscated by adding 97, 11 and 53 to its three byte
  groups.
- **Dash line.** 16 dashes close the table.
- **Payloads.** Each file's bytes, in scan order, with 37 added to every
  byte. With the `-n` flag, TXT and SRC files first have each line feed
  turned into NUL.

`unpack` works in this order:

1. It checks the magic string at byte 16.
2. It parses the count at byte 32.
3. It creates the output directory.
4. For each record, it undoes the obfuscation. It rebuilds the file name
   from the stem and the extension of the tag masked to four bits. It reads
   the payload at 64 + 16 N + 16 + offset and reverses the byte transform.

Modules, one per component of the codec:

| file | module | component |
|---|---|---|
| `wrappers.dfy` | `Wrappers` | `Option` and `Result` |
| `bytes.dfy` | `Bytes` | unsigned-char arithmetic, `write_big_endian`, name/byte conversions, C's `isspace`, block concatenation |
| `registry.dfy` | `Registry` | `sdf_extension` and `get_type_from_ext` |
| `filename.dfy` | `FileName` | the `sscanf("%[^.\r\n].%s")` split of an entry name |
| `record.dfy` | `IndexRecord` | the 16-byte index record, both directions |
| `payload.dfy` | `Payload` | the payload byte transform, both directions |
| `header.dfy` | `Header` | the 64-byte header, `%d` rendering and the `fscanf("%d")` parse |
| `index.dfy` | `IndexBuilder` | the scan loop's selection and the running offset `pos` |
| `archive.dfy` | `Archive` | `pack` and `unpack` over whole archives, and the round trip |
| `writer.dfy` | `WriterLoop` | the writer loops' `continue` on unknown types (see Findings) |

Bytes are integers in 0..255. Unsigned-char `+=` and `-=` wrap modulo 256.
`unsigned int` quantities wrap modulo 2^32: the size taken from `ftell` and
the running `pos`. Names are strings of one-byte characters without NUL.

## Model

| member | source | states |
|---|---|---|
| `Registry.TypeFromExt` | main.c:193-201 | the lookup returns a tag below 16; a non-zero tag is an index whose table entry equals the extension; the result is 0 exactly when the extension is none of entries 1..15 (exact, case-sensitive match) |
| `Registry.FirstMatch` | main.c:195-199 | the loop's scan from index i stops at the first index whose entry equals the extension, or at EXT_END when none from i on does; no entry it passes equals the extension |
| `Registry.TypeOfExtension` | main.c:71-76 | every real tag 1..15 maps back to itself through its own extension |
| `Registry.ExtensionsDistinct` | main.c:72-75 | no two table entries are the same string |
| `Registry.BadIsUnrecognised` | main.c:193-201 | the literal "BAD" yields 0, the same as an unknown extension |
| `Bytes.BigEndian32` | main.c:185-191 | the four bytes written for a 32-bit n recombine as b0·2^24 + b1·2^16 + b2·2^8 + b3 into n |
| `Bytes.LowBytesOfBigEndian32` | main.c:267-268 | bytes 1-3 of the big-endian size, read as a 24-bit number, give the size modulo 2^24 |
| `Bytes.SubWrapUndoesAddWrap` | main.c:313 | subtracting a key from an unsigned char undoes adding it, for every byte and key |
| `Bytes.AddWrapUndoesSubWrap` | main.c:414 | adding a key undoes subtracting it, so each key shift is a bijection on bytes |
| `FileName.Scan` | main.c:228 | on success the stem is a non-empty prefix of the name with no '.', CR or LF, followed by '.', and the extension is non-empty and holds no whitespace; a leading '.', CR or LF makes the scan fail; `FileName.ScanTakesFirstToken` adds where the extension comes from |
| `FileName.ScanTakesFirstToken` | main.c:228 | `%s` reads the extension as the first whitespace-delimited token after the '.': it is a prefix of what follows the leading white space, and white space or the end of the name comes right after it (with `Scan`'s "no white space in the extension", `Parts("a", "x")` is ruled out for "a.TXT x") |
| `FileName.ScanJoin` | main.c:228 | a name built as stem + "." + ext, with such a stem and extension, scans back to exactly that stem and extension |
| `IndexRecord.Obfuscate` | main.c:271-286 | only that the record stays 16 bytes; `IndexRecord.DeobfuscateObfuscate` and `IndexRecord.ObfuscateDeobfuscate` state what the key shifts mean |
| `IndexRecord.Deobfuscate` | main.c:375-390 | only that the record stays 16 bytes; its meaning is the inverse pair of lemmas below |
| `IndexRecord.DeobfuscateObfuscate` | main.c:375-390 | subtracting 97/11/53 from an obfuscated record gives back the plain record |
| `IndexRecord.ObfuscateDeobfuscate` | main.c:271-286 | adding the keys after subtracting them gives back the raw record, so the obfuscation is a bijection on 16-byte records |
| `IndexRecord.StemField` | main.c:269 | for a stem without NUL, the 8-byte stem field holds stem character i at position i and zero after the stem's end, as `strncpy` pads it |
| `IndexRecord.CString` | main.c:392-393 | the C string in a buffer is a prefix without NUL, followed by NUL or the end of the buffer |
| `IndexRecord.Plain` | main.c:263-269 | the plain record holds the big-endian offset in bytes 0-3, the tag in byte 4 over the top size byte, the low three size bytes in 5-7 and the eight-byte stem field in 8-15 |
| `IndexRecord.Encode` | main.c:263-286 | only that a record is 16 bytes; `IndexRecord.RecordRoundTrip` states what `unpack` reads back from it |
| `IndexRecord.ReadPlain` | main.c:392-408 | bounds only: offset below 2^32, size below 2^24, tag below 16; `IndexRecord.OffsetField`, `IndexRecord.SizeField` and `IndexRecord.NameField` state which written values it recovers |
| `IndexRecord.Decode` | main.c:394-408 | a decoded record has an offset below 2^32, a size below 2^24 and a tag below 16 (the `& 15` mask) |
| `IndexRecord.OffsetField` | main.c:405 | the reader's offset is the value written by `write_big_endian(buff, pos)` |
| `IndexRecord.SizeField` | main.c:408 | the reader's size is the written size modulo 2^24 |
| `IndexRecord.NameField` | main.c:392-396 | the reader's tag is the written tag, and its name is the first eight stem characters, '.', and the tag's extension |
| `IndexRecord.RecordRoundTrip` | main.c:263-408 | decoding an encoded record gives offset = pos, size = size mod 2^24, tag = tag, and name = first min(8, stem length) stem characters + "." + extension |
| `IndexRecord.SizeExactIffBelowCeiling` | main.c:408 | the decoded size equals the written size if and only if the size is below 2^24 |
| `Payload.EncodeByte` | main.c:309-313 | no contract of its own; `Payload.ByteRoundTrip` and `Payload.FoldMergesLineFeedAndNul` state what the transform keeps and what it merges |
| `Payload.DecodeByte` | main.c:414-418 | no contract of its own; `Payload.ByteRoundTrip` states that it inverts `EncodeByte` |
| `Payload.Encode` | main.c:305-313 | only that the payload keeps its length; `Payload.PayloadRoundTrip` states its meaning |
| `Payload.Decode` | main.c:409-418 | only that the payload keeps its length; `Payload.PayloadRoundTrip` and `Payload.PayloadRoundTripExact` state its meaning |
| `Payload.ByteRoundTrip` | main.c:414-418 | a byte comes back unchanged, except a NUL under the fold (flag set, type TXT or SRC), which comes back as a line feed; both directions of the if-and-only-if |
| `Payload.FoldMergesLineFeedAndNul` | main.c:309-313 | under the fold, a line feed and a NUL are both written as 37 |
| `Payload.PayloadRoundTrip` | main.c:409-421 | unpacking a packed payload gives its restored form: the data with, under the fold, every NUL replaced by a line feed |
| `Payload.PayloadRoundTripExact` | main.c:305-316 | the payload round trip is exact if and only if the fold does not apply or the data holds no NUL |
| `Header.Header` | main.c:242-247 | the header is 64 bytes: dashes in bytes 0-15 and 48-63, the magic string in 16-31, and the space-padded count field in 32-47 |
| `Header.Dashes` | main.c:243 | the filler line is 16 bytes, every one a dash |
| `Header.Decimal` | main.c:245 | the `%d` text is non-empty and all decimal digits; `Header.DecimalValue` states that it denotes the count |
| `Header.CountField` | main.c:245-246 | only that the count field is 16 bytes; `Header.ParseCountField` and `Header.HeaderCount` state that it parses back to the count |
| `Header.ParseInt` | main.c:352 | no contract of its own; `Header.ParseCountField`, `Header.HeaderCount` and `Header.HeaderPrefix` state what it reads from a count field |
| `Header.DecimalValue` | main.c:245 | the digits `%d` prints for a count denote that count |
| `Header.CountFits` | main.c:245-246 | a count below 2^31 prints as at most ten digits, so "<N> files" fits the 16-byte slot and the padding length is not negative |
| `Header.ParseCountField` | main.c:352 | `fscanf("%d")` on the count field, whatever follows it, parses the count |
| `Header.HeaderCount` | main.c:350-352 | parsing at byte 32 of a header followed by anything gives the count back |
| `Header.HeaderPrefix` | main.c:337-352 | whatever follows the header, the reader's magic check at byte 16 passes and its count parse at byte 32 gives N |
| `IndexBuilder.Classify` | main.c:221-233 | an entry yields an item exactly when it is not "." or ".." and the tag of the extension `sscanf` splits off is not ExtBad; the item carries the stem and extension of that split, the tag `get_type_from_ext` gives the extension, and the file's bytes |
| `IndexBuilder.ClassifyJoin` | main.c:228-233 | a file named stem.EXT, for a registry extension EXT, becomes the item with that stem, extension and tag |
| `IndexBuilder.Select` | main.c:219-235 | the selection has no more items than the listing, and every selected item is well formed |
| `IndexBuilder.SelectAppend` | main.c:219-235 | scanning two listings one after the other selects the concatenation of their selections, in order |
| `IndexBuilder.SkippedEntryIsInvisible` | main.c:229-233 | inserting an entry the scan does not count anywhere in a listing changes nothing in the selection |
| `IndexBuilder.Size` | main.c:257-259 | the size `ftell` gives, stored in an `unsigned int`: below 2^32, and equal to the file's length exactly when that length is below 2^32 |
| `IndexBuilder.Positions` | main.c:250-266 | the offsets are one per entry, each below 2^32, and the first is the starting `pos` |
| `IndexBuilder.PositionsStep` | main.c:264-266 | each next offset is the previous one plus that entry's size, modulo 2^32 |
| `IndexBuilder.PositionsArePrefixSums` | main.c:250-266 | while the sizes sum below 2^32, offset i is the start plus the sum of the sizes of the entries before i |
| `IndexBuilder.Tiling` | main.c:250-266 | the intervals [pos, pos + size) start at 0, each starts where the previous one ends, the last ends at the total size, and earlier intervals end before later ones start |
| `IndexBuilder.IntervalsOrdered` | main.c:264-266 | for i < j, interval i ends no later than interval j starts |
| `IndexBuilder.EveryByteHasOneOwner` | main.c:264-266 | every payload offset below the total lies in the interval of exactly one entry |
| `Archive.Records` | main.c:263-290 | one 16-byte record per included entry, in scan order; length and width only, `Archive.RecordAt` states which record lies where |
| `Archive.PayloadOf` | main.c:303-313 | an entry's payload is as long as its size; `Archive.EntryRoundTrip` states what it decodes to |
| `Archive.Assemble` | main.c:242-316 | no contract of its own; `Archive.AssembleHeader`, `Archive.AssembleFrame`, `Archive.AssembleRecordAt` and `Archive.AssemblePayloadAt` state where each part lies |
| `Archive.Layout` | main.c:242-316 | the packed archive is 64 + 16 N + 16 + Σ size bytes long; bytes 0-63 are the header (dashes at 0-15 and 48-63, the magic string at 16-31, the count field at 32-47, which parses to N); the 16 bytes at 64 + 16 N are the closing dash line of main.c:294 |
| `Archive.Pack` | main.c:207-316 | a directory that cannot be opened gives NoDir; otherwise packing succeeds with that length, that 64-byte header and that closing dash line |
| `Archive.AssembleHeader` | main.c:242-247 | an archive laid out as header, table, dash line and payloads carries the magic string and the count |
| `Archive.AssembleFrame` | main.c:242-294 | such an archive opens with the 64-byte header, and the 16 bytes right after the table are the dash line written at main.c:294 |
| `Archive.AssembleRecordAt` | main.c:367-374 | table block i lies at bytes 64 + 16 i to 64 + 16 (i + 1) |
| `Archive.RecordAt` | main.c:367-374 | in a packed archive, bytes 64 + 16 i to 64 + 16 (i + 1) are record i as `pack` encoded it |
| `Archive.AssemblePayloadAt` | main.c:406 | payload block i lies at 64 + 16 N + 16 plus the total length of the payloads before it |
| `Archive.PayloadOffset` | main.c:264-266 | the payloads before entry i take exactly pos_i bytes, so payload i starts where record i says |
| `Archive.ReadEntry` | main.c:371-421 | one turn of the unpack loop fails only with Truncated; `Archive.ReadEntryFailsOnlyPastEnd` states when |
| `Archive.ReadEntryFailsOnlyPastEnd` | main.c:371-421 | a turn fails only when a byte it reads lies past the end of the archive: the record itself, or a payload byte of a record of size above 0 |
| `Archive.EmptyEntryAnywhere` | main.c:403-423 | a record of size 0 yields an empty file with the record's name, whatever its offset: the seek past the end succeeds and `while (filesize--)` reads nothing |
| `Archive.ZeroSizeRecordPastEnd` | main.c:329-426 | a one-record archive whose record has size 0 unpacks to exactly one empty file named from the record, even when the offset points far past the end (for example `a.TXT` at offset 1000 in an 80-byte archive) |
| `Archive.UnpackOfHeader` | main.c:337-368 | with the directory created, unpacking anything that starts with the header for N entries runs the extraction loop over N records |
| `Archive.Extract` | main.c:367-426 | the unpack loop from record i on yields one file per remaining record, and fails only with Truncated, which `ReadEntry` gives only for a read past the end |
| `Archive.Unpack` | main.c:329-365 | a missing archive gives NoFile; a wrong magic string gives BadMagic whether or not the directory could be created; DirExists exactly when the magic is right and mkdir fails; success means N files for the parsed count N (none when N ≤ 0) |
| `Archive.ReadAssembled` | main.c:405-406 | on an assembled archive whose record i points at payload block i, turn i reads back that block |
| `Archive.ExtractStep` | main.c:367-425 | turn i on a packed archive yields the expected file i |
| `Archive.EntryRoundTrip` | main.c:392-418 | one entry's record and payload decode to its short name and restored bytes |
| `Archive.SeekPositionsFit` | main.c:405-406 | with the payload end below 2^31, every entry's `64 + filenum * 16 + 16 + offset` and the end of its payload stay below 2^31 |
| `Archive.LayoutRoundTrip` | main.c:329-426 | unpacking the archive packed from a list of included entries gives one expected file per entry |
| `Archive.EveryTurnSucceeds` | main.c:367-421 | on a packed archive, every turn of the extraction loop yields its expected file |
| `Archive.PackUnpack` | main.c:203-426 | unpacking what `pack` wrote, with the same flag and a creatable directory, gives each included file back, in scan order, named by its first eight stem characters, '.', and its extension, with its contents restored |
| `Archive.ExpectedExact` | main.c:309-313 | with no NUL in any folded entry, every expected file holds exactly the original bytes |
| `Archive.PackUnpackExact` | main.c:409-421 | with the fold off, or no NUL in folded entries, the round trip gives back every file's contents byte for byte |
| `WriterLoop.NonDot` | main.c:221-229 | the scan loop keeps exactly the listing's entries other than "." and "..": each kept entry is from the listing, is not "." or "..", and is split by `sscanf` within the `name[32]` and `ext[8]` buffers; every other entry of the listing is kept |
| `WriterLoop.NonDotAppend` | main.c:219-231 | the kept entries of two listings read one after the other are those of the first, in order, then those of the second |
| `WriterLoop.Node` | main.c:223-229 | no contract of its own; `WriterLoop.LinkedNodes` states that node i is the split, tag and bytes of the i-th kept entry |
| `WriterLoop.Linked` | main.c:219-231 | the scan links exactly one node per entry other than "." and "..", unknown extensions included |
| `WriterLoop.LinkedNodes` | main.c:223-231 | node i carries the `sscanf` split of the i-th such entry's name, the tag of its extension (ExtBad included) and its bytes |
| `WriterLoop.StepAsWritten` | main.c:252-256 | no contract of its own; `WriterLoop.AsWrittenNeverPasses` and `WriterLoop.UnknownExtensionHangsPack` state what repeating it does |
| `WriterLoop.RunAsWritten` | main.c:252-256 | the as-written loop's cursor never moves backwards and never passes the end of the list |
| `WriterLoop.AsWrittenNeverPasses` | main.c:252-256 | with the `continue` as written, a type-0 node at j keeps the cursor at or before j for any number of turns |
| `WriterLoop.UnknownExtensionHangsPack` | main.c:219-256 | a listing with an entry other than "." and ".." whose extension `get_type_from_ext` maps to 0 (such as `notes.md`) never lets the as-written loop reach the end of the list, however many turns it takes |
| `WriterLoop.WrittenFixed` | main.c:298-302 | the intended loop writes only nodes whose tag is not ExtBad, and no more nodes than the list holds |
| `WriterLoop.StepFixed` | main.c:252-256 | no contract of its own; `WriterLoop.FixedWritesRest` states what repeating it writes |
| `WriterLoop.FixedWritesRest` | main.c:252-290 | from cursor c, the intended loop reaches the end after one turn per remaining node, having appended exactly the remaining nodes whose tag is known |
| `WriterLoop.FixedLoopWritesSelect` | main.c:252-302 | run from the head of the list with nothing written, the intended loop stops at the end having written exactly the entries counted in `filenum`, in scan order |
| `WriterLoop.AsWrittenAgreesWithoutUnknown` | main.c:252-256 | on a list without type-0 nodes the loop as written takes the same turns as the intended one |
| `WriterLoop.WrittenFixedIsSelect` | main.c:219-233 | the intended loop writes exactly the entries the scan counts in `filenum` |

## Left out

- Argument parsing, default paths and the help text (main.c:87-183) are command-line plumbing.
- Real I/O is given as values. `opendir`/`readdir` become a listing of entries with their bytes. A directory that cannot be opened is `None`. `fseek`/`ftell` become the byte count. `fopen`, `fread` and `fwrite` are not modelled. `mkdir` becomes a boolean parameter saying whether it fails. The `sprintf` path building is not modelled.
- Failure to open the output archive in `pack`, and failure to open an output file in `unpack`, are not modelled. The source does not check either.
- Partial output after a mid-run failure is not modelled. A failing `unpack` is a `Failure` value; files already written before the failure are not modelled.
- Reads past the end of the archive give `Truncated` in the model. This covers reading a record, or reading a payload of size above 0. A record of size 0 reads nothing, so it gives an empty file wherever its offset points, as in the source. In the source, `fread` leaves the bytes as they were, so the result is indeterminate. The same goes for an archive shorter than 32 bytes at the magic check.
- Names that `sscanf` cannot split are excluded by the `Listing` precondition. That rules out every name starting with '.' (hidden files such as `.gitignore`, whose stem conversion fails at once), names with no '.' after the stem, and names with nothing after the '.'. In the source these leave `name` or `ext` uninitialised. Stems of 32 or more characters and extensions of 8 or more are excluded the same way, because they overflow `name[32]` and `ext[8]`.
- The missing return values of `pack` and `unpack` (main.c:323, 429) are not modelled. Success is a `Success` value.
- `Archive.ReadEntry` reads the offset as an unsigned 32-bit number and computes the seek position with unbounded integers. The source stores `index[0] << 24 | …` into a signed `int` (main.c:405) and computes `64 + filenum * 16 + 16 + offset` in `int` (main.c:406); past 2^31 - 1 that is undefined behaviour. The round trip therefore assumes that the seek position of the end of the payloads, `64 + 16N + 16 + total size`, is below 2^31 (`Representable`), which keeps every entry's seek position and offset inside `int`.
- `Header.ParseInt` uses unbounded integers. `fscanf("%d")` overflow for counts beyond `int` is undefined and is not modelled. A parsed count of zero or below yields no files, as the loop at main.c:368 does. The packer's `filenum` is taken below 2^31.
- `Archive.PackUnpack`: two entries whose first eight stem characters and extension agree unpack to the same name. The later file then overwrites the earlier one on disk. The model returns both files in order; the overwrite belongs to the file system, which is not modelled.
- `Archive.PackUnpack` assumes every file is below 2^24 bytes (`Representable`). `IndexRecord.SizeExactIffBelowCeiling` states what happens above that ceiling: the size read back is the size modulo 2^24.
- `Archive.Pack` writes all `size` bytes of every payload. The source counts them with `for (int i = 0; i < size; ++i)` (main.c:305), where `size` is an `unsigned int`: `i` is converted to unsigned for the comparison, and `++i` past 2^31 - 1 overflows a signed `int`, which is undefined behaviour. The model follows what the loop evidently means. Files of 2^31 bytes or more are not separately modelled; the round trip excludes them anyway, because it requires every file to be below 2^24 bytes.
- The `continue` of both writer loops (main.c:254-255, 300-301) is modelled separately in `WriterLoop` (see Findings). `Archive.Pack` writes the filtered list, as the corrected loop does.

## Findings

| source | as written | input that shows it | evidently intended | confidence | as-written member | corrected member |
|---|---|---|---|---|---|---|
| main.c:252-256 | `if (0 == type) continue;` jumps back to the loop test without advancing `ientry`. The scan loop links type-0 nodes too (main.c:223-231), so any such node is met again forever, and the same holds for the payload loop at main.c:298-302 | a directory holding a file `notes.md` (any extension not in the table) | skip the node: advance `ientry` before continuing, so that exactly the `filenum` counted entries are written | high (not executed) | `WriterLoop.UnknownExtensionHangsPack` (with `WriterLoop.RunAsWritten` and `WriterLoop.AsWrittenNeverPasses`) | `WriterLoop.FixedLoopWritesSelect` (with `WriterLoop.FixedWritesRest` and `WriterLoop.WrittenFixedIsSelect`); `Archive.Pack` writes `Select`, the list this loop writes |

=== FILE: archive.dfy ===
/** The two operations of the packer over whole archives: `pack`, which
    writes the header, the obfuscated index table, a dash line and the
    transformed payloads of the included entries; and `unpack`, which checks
    the magic string, parses the count, and extracts one file per record. */
module Archive {
  import opened Wrappers
  import opened Bytes
  import opened IndexBuilder
  import Registry
  import IndexRecord
  import Payload
  import Header

  /** The failures `pack` and `unpack` report: EC_NODIR, EC_NOFILE,
      EC_BADMAGIC and EC_DIREXISTS; and Truncated for a read past the end of
      the archive. */
  datatype Error = NoDir | NoFile | BadMagic | DirExists | Truncated

  /** A file `unpack` writes into the output directory. */
  datatype OutFile = OutFile(name: string, data: seq<byte>)

  /** Where the index table starts. */
  const TableStart: nat := 64
  /** Offset of the magic string and of the count field in the header. */
  const MagicStart: nat := 16
  const CountStart: nat := 32

  predicate AllWellFormed(items: seq<Item>) {
    forall i | 0 <= i < |items| :: WellFormed(items[i])
  }

  /** The index records, one per included entry, in scan order. */
  function Records(items: seq<Item>, ps: seq<nat>): (rs: seq<seq<byte>>)
    requires AllWellFormed(items)
    requires |ps| == |items| && forall i | 0 <= i < |ps| :: ps[i] < TwoTo32
    ensures |rs| == |items|
    ensures forall i | 0 <= i < |rs| :: |rs[i]| == IndexRecord.RecordWidth
  {
    seq(|items|, i requires 0 <= i < |items| =>
      IndexRecord.Encode(ps[i], Size(items[i]), items[i].tag, items[i].stem))
  }

  /** The bytes the payload loop writes for one entry: the first `size`
      bytes of the file, transformed. */
  function PayloadOf(it: Item, fold: bool): (r: seq<byte>)
    ensures |r| == Size(it)
  {
    Payload.Encode(it.data[..Size(it)], fold, it.tag)
  }

  function Payloads(items: seq<Item>, fold: bool): (ps: seq<seq<byte>>)
    ensures |ps| == |items|
  {
    seq(|items|, i requires 0 <= i < |items| => PayloadOf(items[i], fold))
  }

  lemma {:induction false} PayloadsLength(items: seq<Item>, fold: bool)
    ensures |Flatten(Payloads(items, fold))| == TotalSize(items)
    decreases |items|
  {
    if |items| > 0 {
      assert Payloads(items, fold) == [PayloadOf(items[0], fold)] + Payloads(items[1..], fold);
      PayloadsLength(items[1..], fold);
    }
  }

  /** The archive as `pack` writes it for `n` entries: header, index table,
      the closing dash line, payloads. */
  function Assemble(n: nat, table: seq<seq<byte>>, payloads: seq<seq<byte>>): seq<byte>
    requires n < TwoTo31
  {
    Header.Header(n) + Flatten(table) + Header.Dashes() + Flatten(payloads)
  }

  /** The archive `pack` writes for the included entries `items`: its length
      is the header, one record per entry, the closing dash line and the
      payloads; the reader's magic check passes and its count parse gives
      the number of entries. */
  function Layout(items: seq<Item>, fold: bool): (a: seq<byte>)
    requires |items| < TwoTo31
    requires AllWellFormed(items)
    ensures |a| == TableStart + IndexRecord.RecordWidth * |items| + Header.LineWidth + TotalSize(items)
    ensures Framed(a, |items|, TotalSize(items))
  {
    var recs := Records(items, Positions(items, 0));
    FlattenUniformLength(recs, IndexRecord.RecordWidth);
    PayloadsLength(items, fold);
    AssembleHeader(|items|, recs, Payloads(items, fold));
    AssembleFrame(|items|, recs, Payloads(items, fold));
    Assemble(|items|, recs, Payloads(items, fold))
  }

  /** The header of an assembled archive carries the magic string and the count. */
  lemma AssembleHeader(n: nat, table: seq<seq<byte>>, payloads: seq<seq<byte>>)
    requires n < TwoTo31
    ensures |Assemble(n, table, payloads)| == TableStart + |Flatten(table)| + Header.LineWidth + |Flatten(payloads)|
    ensures Assemble(n, table, payloads)[MagicStart..CountStart] == Header.Magic()
    ensures Header.ParseInt(Assemble(n, table, payloads)[CountStart..]) == n
  {
    var rest := Flatten(table) + Header.Dashes() + Flatten(payloads);
    assert Assemble(n, table, payloads) == Header.Header(n) + rest;
    Header.HeaderPrefix(n, rest);
  }

  /** An assembled archive opens with the 64-byte header, and the dash line
      `pack` writes after the last index record follows the table. */
  lemma AssembleFrame(n: nat, table: seq<seq<byte>>, payloads: seq<seq<byte>>)
    requires n < TwoTo31
    ensures |Assemble(n, table, payloads)| >= TableStart + |Flatten(table)| + Header.LineWidth
    ensures Assemble(n, table, payloads)[..TableStart] == Header.Header(n)
    ensures Assemble(n, table, payloads)[TableStart + |Flatten(table)|..TableStart + |Flatten(table)| + Header.LineWidth]
            == Header.Dashes()
  {
    var h, t, d, p := Header.Header(n), Flatten(table), Header.Dashes(), Flatten(payloads);
    assert Assemble(n, table, payloads) == (h + t) + d + p;
    assert ((h + t) + d + p)[..TableStart] == h;
    SliceOfMiddle(h + t, d, p, 0, Header.LineWidth);
    assert d[0..Header.LineWidth] == d;
  }

  /** The frame of an archive of `n` entries whose payloads take `total`
      bytes: its length; the 64-byte header, in which the reader finds the
      magic string at byte 16 and parses `n` at byte 32; and the dash line
      after the `n` index records. */
  predicate Framed(a: seq<byte>, n: nat, total: nat)
    requires n < TwoTo31
  {
    var end := TableStart + IndexRecord.RecordWidth * n;
    && |a| == end + Header.LineWidth + total
    && a[..TableStart] == Header.Header(n)
    && a[MagicStart..CountStart] == Header.Magic()
    && Header.ParseInt(a[CountStart..]) == n
    && a[end..end + Header.LineWidth] == Header.Dashes()
  }

  /** `pack`: fails with NoDir when the directory cannot be opened, and
      otherwise writes the layout of the included entries. */
  function Pack(dir: Option<seq<DirEntry>>, fold: bool): (r: Result<seq<byte>, Error>)
    requires dir.Some? ==> Listing(dir.value) && |Select(dir.value)| < TwoTo31
    ensures dir.None? ==> r == Failure(NoDir)
    ensures dir.Some? ==> r.Success?
    ensures r.Success? ==> Framed(r.value, |Select(dir.value)|, TotalSize(Select(dir.value)))
  {
    match dir
    case None => Failure(NoDir)
    case Some(entries) =>
      var items := Select(entries);
      var a := Layout(items, fold);
      Success(a)
  }

  /** In an assembled archive, table block i sits at byte 64 + 16 i. */
  lemma AssembleRecordAt(n: nat, table: seq<seq<byte>>, payloads: seq<seq<byte>>, i: nat)
    requires n < TwoTo31
    requires |table| == n && i < n
    requires forall j | 0 <= j < n :: |table[j]| == IndexRecord.RecordWidth
    ensures TableStart + IndexRecord.RecordWidth * (i + 1) <= |Assemble(n, table, payloads)|
    ensures Assemble(n, table, payloads)[TableStart + IndexRecord.RecordWidth * i..TableStart + IndexRecord.RecordWidth * (i + 1)]
            == table[i]
  {
    FlattenSlice(table, i);
    FlattenUniformLength(table[..i], IndexRecord.RecordWidth);
    FlattenUniformLength(table, IndexRecord.RecordWidth);
    var h := Header.Header(n);
    var tail := Header.Dashes() + Flatten(payloads);
    assert Assemble(n, table, payloads) == h + Flatten(table) + tail;
    SliceOfMiddle(h, Flatten(table), tail, IndexRecord.RecordWidth * i, IndexRecord.RecordWidth * (i + 1));
  }

  /** In an assembled archive, payload block i sits at byte 64 + 16 n + 16
      plus the length of the payloads before it. */
  lemma AssemblePayloadAt(n: nat, table: seq<seq<byte>>, payloads: seq<seq<byte>>, i: nat)
    requires n < TwoTo31
    requires |table| == n && i < |payloads|
    requires forall j | 0 <= j < n :: |table[j]| == IndexRecord.RecordWidth
    ensures PayloadStart(n, |Flatten(payloads[..i])|) + |payloads[i]| <= |Assemble(n, table, payloads)|
    ensures Assemble(n, table, payloads)[PayloadStart(n, |Flatten(payloads[..i])|)..
                                         PayloadStart(n, |Flatten(payloads[..i])|) + |payloads[i]|]
            == payloads[i]
  {
    FlattenSlice(payloads, i);
    FlattenUniformLength(table, IndexRecord.RecordWidth);
    var front := Header.Header(n) + Flatten(table) + Header.Dashes();
    var off := |Flatten(payloads[..i])|;
    assert Assemble(n, table, payloads) == front + Flatten(payloads) + [];
    SliceOfMiddle(front, Flatten(payloads), [], off, off + |payloads[i]|);
  }

  /** Record i of a packed archive sits at byte 64 + 16 i. */
  lemma RecordAt(items: seq<Item>, fold: bool, i: nat)
    requires |items| < TwoTo31
    requires AllWellFormed(items)
    requires i < |items|
    ensures TableStart + IndexRecord.RecordWidth * (i + 1) <= |Layout(items, fold)|
    ensures Layout(items, fold)[TableStart + IndexRecord.RecordWidth * i..TableStart + IndexRecord.RecordWidth * (i + 1)]
            == Records(items, Positions(items, 0))[i]
  {
    AssembleRecordAt(|items|, Records(items, Positions(items, 0)), Payloads(items, fold), i);
  }

  /** The payloads before entry i fill exactly its offset's worth of bytes. */
  lemma PayloadOffset(items: seq<Item>, fold: bool, i: nat)
    requires TotalSize(items) < TwoTo32
    requires i < |items|
    ensures |Flatten(Payloads(items, fold)[..i])| == Positions(items, 0)[i]
  {
    assert Payloads(items, fold)[..i] == Payloads(items[..i], fold);
    PayloadsLength(items[..i], fold);
    PositionIsPrefixSum(items, i);
  }

  /** Where `unpack` seeks for a payload: past the header, the N records and
      the dash line, plus the record's offset. */
  function PayloadStart(n: int, offset: nat): int {
    TableStart + n * IndexRecord.RecordWidth + Header.LineWidth + offset
  }

  /** One turn of the loop of `unpack`: read record i, decode it, and read
      and restore the payload it points to. A record of size 0 reads no
      payload byte, so the file is created empty wherever its offset points
      (seeking past the end of a file is allowed). */
  function ReadEntry(a: seq<byte>, n: int, i: nat, fold: bool): (r: Result<OutFile, Error>)
    requires i < n
    ensures r.Failure? ==> r.error == Truncated
  {
    var at := TableStart + IndexRecord.RecordWidth * i;
    if |a| < at + IndexRecord.RecordWidth then Failure(Truncated)
    else
      var v := IndexRecord.Decode(a[at..at + IndexRecord.RecordWidth]);
      var start := PayloadStart(n, v.offset);
      if v.size == 0 then Success(OutFile(v.name, []))
      else if |a| < start + v.size then Failure(Truncated)
      else Success(OutFile(v.name, Payload.Decode(a[start..start + v.size], fold, v.tag)))
  }

  /** A turn fails only when a byte it reads lies past the end of the
      archive: the record itself, or a payload byte of a record of size
      above 0. */
  lemma ReadEntryFailsOnlyPastEnd(a: seq<byte>, n: int, i: nat, fold: bool)
    requires i < n
    ensures ReadEntry(a, n, i, fold).Failure? ==>
      var at := TableStart + IndexRecord.RecordWidth * i;
      || |a| < at + IndexRecord.RecordWidth
      || (var v := IndexRecord.Decode(a[at..at + IndexRecord.RecordWidth]);
          v.size > 0 && |a| < PayloadStart(n, v.offset) + v.size)
  {
  }

  /** A record of size 0 yields an empty file named after the record,
      whatever its offset, even one pointing past the end of the archive. */
  lemma EmptyEntryAnywhere(a: seq<byte>, n: int, i: nat, fold: bool)
    requires i < n
    requires TableStart + IndexRecord.RecordWidth * (i + 1) <= |a|
    requires IndexRecord.Decode(a[TableStart + IndexRecord.RecordWidth * i..TableStart + IndexRecord.RecordWidth * (i + 1)]).size == 0
    ensures
      var v := IndexRecord.Decode(a[TableStart + IndexRecord.RecordWidth * i..TableStart + IndexRecord.RecordWidth * (i + 1)]);
      ReadEntry(a, n, i, fold) == Success(OutFile(v.name, []))
  {
  }

  /** The loop of `unpack` from record `i` on, with `n` the parsed count. */
  function Extract(a: seq<byte>, n: int, i: nat, fold: bool): (r: Result<seq<OutFile>, Error>)
    ensures r.Success? ==> |r.value| == (if i < n then n - i else 0)
    ensures r.Failure? ==> r.error == Truncated
    decreases if i < n then n - i else 0
  {
    if n <= i then Success([])
    else
      match ReadEntry(a, n, i, fold)
      case Failure(e) => Failure(e)
      case Success(out) =>
        match Extract(a, n, i + 1, fold)
        case Success(rest) => Success([out] + rest)
        case Failure(e) => Failure(e)
  }

  /** `unpack`: NoFile when the archive cannot be opened, BadMagic when bytes
      16-31 are not the magic string (decided before the output directory is
      created), DirExists when creating the directory fails, and otherwise
      one file per record for the count parsed at byte 32. */
  function Unpack(archive: Option<seq<byte>>, mkdirFails: bool, fold: bool): (r: Result<seq<OutFile>, Error>)
    ensures archive.None? ==> r == Failure(NoFile)
    ensures archive.Some? && |archive.value| >= CountStart
            && archive.value[MagicStart..CountStart] != Header.Magic()
            ==> r == Failure(BadMagic)
    ensures r == Failure(DirExists) <==>
            && archive.Some? && |archive.value| >= CountStart
            && archive.value[MagicStart..CountStart] == Header.Magic()
            && mkdirFails
    ensures r.Success? ==>
            && archive.Some? && |archive.value| >= CountStart
            && archive.value[MagicStart..CountStart] == Header.Magic()
            && !mkdirFails
            && var n := Header.ParseInt(archive.value[CountStart..]);
               |r.value| == if n > 0 then n else 0
  {
    match archive
    case None => Failure(NoFile)
    case Some(a) =>
      if |a| < CountStart then Failure(Truncated)
      else if a[MagicStart..CountStart] != Header.Magic() then Failure(BadMagic)
      else if mkdirFails then Failure(DirExists)
      else Extract(a, Header.ParseInt(a[CountStart..]), 0, fold)
  }

  /** What unpacking a packed directory should give, stated without the
      codec: per included entry, the first eight stem characters, '.', and
      the extension as the name, and the restored contents. */
  function Expected(items: seq<Item>, fold: bool): (fs: seq<OutFile>)
    ensures |fs| == |items|
  {
    seq(|items|, i requires 0 <= i < |items| =>
      OutFile(IndexRecord.ShortStem(items[i].stem) + "." + items[i].ext,
              Payload.Restored(items[i].data, fold, items[i].tag)))
  }

  /** The conditions under which the round trip holds: the count fits the
      packer's int, the reader's seek position `64 + filenum*16 + 16 + offset`
      fits its signed int for every entry (the payload end bounds them all),
      and every file is below the 24-bit size ceiling. */
  predicate Representable(items: seq<Item>) {
    && |items| < TwoTo31
    && PayloadStart(|items|, TotalSize(items)) < TwoTo31
    && forall i | 0 <= i < |items| :: |items[i].data| < TwoTo24
  }

  /** Under Representable, every entry's seek position and the end of its
      payload stay inside the reader's signed int. */
  lemma SeekPositionsFit(items: seq<Item>, i: nat)
    requires Representable(items)
    requires i < |items|
    ensures PayloadStart(|items|, Positions(items, 0)[i]) + Size(items[i]) < TwoTo31
  {
    IntervalEnd(items, i);
    TotalSizeMonotone(items, i + 1, |items|);
    assert items[..|items|] == items;
  }

  /** When every turn from i on succeeds with the given file, the loop
      yields those files. */
  lemma {:induction false} ExtractAll(a: seq<byte>, n: nat, i: nat, fold: bool, files: seq<OutFile>)
    requires |files| == n && i <= n
    requires forall j | i <= j < n :: ReadEntry(a, n, j, fold) == Success(files[j])
    ensures Extract(a, n, i, fold) == Success(files[i..])
    decreases n - i
  {
    if i < n {
      ExtractAll(a, n, i + 1, fold, files);
      ExtractAllStep(a, n, i, fold, files);
    } else {
      assert files[i..] == [];
    }
  }

  /** The inductive step of ExtractAll. */
  lemma ExtractAllStep(a: seq<byte>, n: int, i: nat, fold: bool, files: seq<OutFile>)
    requires i < n == |files|
    requires ReadEntry(a, n, i, fold) == Success(files[i])
    requires Extract(a, n, i + 1, fold) == Success(files[i + 1..])
    ensures Extract(a, n, i, fold) == Success(files[i..])
  {
    ExtractCons(a, n, i, fold, files[i], files[i + 1..]);
    SuffixCons(files, i);
  }

  /** A successful turn followed by a successful rest of the loop. */
  lemma ExtractCons(a: seq<byte>, n: int, i: nat, fold: bool, f: OutFile, rest: seq<OutFile>)
    requires i < n
    requires ReadEntry(a, n, i, fold) == Success(f)
    requires Extract(a, n, i + 1, fold) == Success(rest)
    ensures Extract(a, n, i, fold) == Success([f] + rest)
  {
  }

  /** One turn of the extraction loop on a packed archive reads record i,
      finds payload i, and produces the expected file i. */
  lemma ExtractStep(items: seq<Item>, fold: bool, i: nat)
    requires AllWellFormed(items) && Representable(items)
    requires i < |items|
    ensures ReadEntry(Layout(items, fold), |items|, i, fold) == Success(Expected(items, fold)[i])
  {
    var ps := Positions(items, 0);
    var recs := Records(items, ps);
    var pays := Payloads(items, fold);
    var it := items[i];
    SmallEntry(items, i);
    EntryRoundTrip(it, ps[i], fold);
    assert recs[i] == IndexRecord.Encode(ps[i], Size(it), it.tag, it.stem);
    PayloadOffset(items, fold, i);
    ReadAssembled(|items|, recs, pays, i, fold);
  }

  /** The reader's turn i on an assembled archive whose record i points at
      payload block i reads back that block. */
  lemma ReadAssembled(n: nat, table: seq<seq<byte>>, payloads: seq<seq<byte>>, i: nat, fold: bool)
    requires n < TwoTo31
    requires |table| == n && |payloads| == n && i < n
    requires forall j | 0 <= j < n :: |table[j]| == IndexRecord.RecordWidth
    requires IndexRecord.Decode(table[i]).offset == |Flatten(payloads[..i])|
    requires IndexRecord.Decode(table[i]).size == |payloads[i]|
    ensures ReadEntry(Assemble(n, table, payloads), n, i, fold)
            == Success(OutFile(IndexRecord.Decode(table[i]).name,
                               Payload.Decode(payloads[i], fold, IndexRecord.Decode(table[i]).tag)))
  {
    var a := Assemble(n, table, payloads);
    AssembleRecordAt(n, table, payloads, i);
    AssemblePayloadAt(n, table, payloads, i);
    ReadEntryAt(a, n, i, fold);
  }

  /** A one-entry archive whose record has size 0 unpacks to one empty file
      with the record's name, whatever the offset, even one far past the end
      of the archive: `Header(1) + Encode(1000, 0, ExtTxt, "a")` gives an
      empty "a.TXT". */
  lemma ZeroSizeRecordPastEnd(offset: nat, tag: nat, stem: string, fold: bool)
    requires offset < TwoTo32 && tag < Registry.ExtEnd
    requires Narrow(stem) && '\0' !in stem
    ensures
      var a := Header.Header(1) + IndexRecord.Encode(offset, 0, tag, stem);
      Unpack(Some(a), false, fold)
        == Success([OutFile(IndexRecord.ShortStem(stem) + "." + Registry.Extensions[tag], [])])
  {
    var rec := IndexRecord.Encode(offset, 0, tag, stem);
    IndexRecord.RecordRoundTrip(offset, 0, tag, stem);
    UnpackOfHeader(1, rec, fold);
    EmptySingleRecord(Header.Header(1), rec, fold);
  }

  /** After a 64-byte header, a single record of size 0 is extracted as an
      empty file with the record's name. */
  lemma EmptySingleRecord(h: seq<byte>, rec: seq<byte>, fold: bool)
    requires |h| == TableStart && |rec| == IndexRecord.RecordWidth
    requires IndexRecord.Decode(rec).size == 0
    ensures Extract(h + rec, 1, 0, fold) == Success([OutFile(IndexRecord.Decode(rec).name, [])])
  {
    var a := h + rec;
    var lo, hi := TableStart + IndexRecord.RecordWidth * 0, TableStart + IndexRecord.RecordWidth * (0 + 1);
    assert a[lo..hi] == rec;
    EmptyEntryAnywhere(a, 1, 0, fold);
    ExtractOne(a, fold);
  }

  /** For a count of 1 the loop of `unpack` takes exactly one turn. */
  lemma ExtractOne(a: seq<byte>, fold: bool)
    requires ReadEntry(a, 1, 0, fold).Success?
    ensures Extract(a, 1, 0, fold) == Success([ReadEntry(a, 1, 0, fold).value])
  {
    assert Extract(a, 1, 1, fold) == Success([]);
    assert [ReadEntry(a, 1, 0, fold).value] + [] == [ReadEntry(a, 1, 0, fold).value];
  }

  /** With the directory created, unpacking anything that starts with a
      header for n entries runs the extraction loop for n records. */
  lemma UnpackOfHeader(n: nat, rest: seq<byte>, fold: bool)
    requires n < TwoTo31
    ensures Unpack(Some(Header.Header(n) + rest), false, fold) == Extract(Header.Header(n) + rest, n, 0, fold)
  {
    Header.HeaderPrefix(n, rest);
  }

  /** The turn of the extraction loop when both reads stay inside the archive. */
  lemma ReadEntryAt(a: seq<byte>, n: int, i: nat, fold: bool)
    requires i < n
    requires TableStart + IndexRecord.RecordWidth * (i + 1) <= |a|
    requires
      var v := IndexRecord.Decode(a[TableStart + IndexRecord.RecordWidth * i..TableStart + IndexRecord.RecordWidth * (i + 1)]);
      PayloadStart(n, v.offset) + v.size <= |a|
    ensures
      var v := IndexRecord.Decode(a[TableStart + IndexRecord.RecordWidth * i..TableStart + IndexRecord.RecordWidth * (i + 1)]);
      var start := PayloadStart(n, v.offset);
      ReadEntry(a, n, i, fold) == Success(OutFile(v.name, Payload.Decode(a[start..start + v.size], fold, v.tag)))
  {
    var v := IndexRecord.Decode(a[TableStart + IndexRecord.RecordWidth * i..TableStart + IndexRecord.RecordWidth * (i + 1)]);
    var start := PayloadStart(n, v.offset);
    if v.size == 0 {
      assert Payload.Decode(a[start..start], fold, v.tag) == [];
    }
  }

  /** An entry of a representable list is below the size ceiling, so its
      32-bit size is its length. */
  lemma SmallEntry(items: seq<Item>, i: nat)
    requires AllWellFormed(items) && Representable(items)
    requires i < |items|
    ensures WellFormed(items[i])
    ensures Size(items[i]) == |items[i].data| < TwoTo24
  {
    assert |items[i].data| < TwoTo24;
  }

  /** Decoding one entry's record and payload gives the expected file. */
  lemma EntryRoundTrip(it: Item, pos: nat, fold: bool)
    requires WellFormed(it) && pos < TwoTo32
    requires Size(it) == |it.data| < TwoTo24
    ensures
      var v := IndexRecord.Decode(IndexRecord.Encode(pos, Size(it), it.tag, it.stem));
      && v.offset == pos && v.size == Size(it)
      && OutFile(v.name, Payload.Decode(PayloadOf(it, fold), fold, v.tag))
         == OutFile(IndexRecord.ShortStem(it.stem) + "." + it.ext, Payload.Restored(it.data, fold, it.tag))
  {
    IndexRecord.RecordRoundTrip(pos, Size(it), it.tag, it.stem);
    IndexRecord.ModIsIdentityBelow(Size(it), TwoTo24);
    assert PayloadOf(it, fold) == Payload.Encode(it.data, fold, it.tag) by {
      assert it.data[..Size(it)] == it.data;
    }
    Payload.PayloadRoundTrip(it.data, fold, it.tag);
  }

  /** Unpacking what `pack` wrote, into a directory that can be created and
      with the same end-of-line flag, gives back every included file: the
      name cut to eight stem characters plus its extension, and the
      contents (with NUL bytes of folded text entries read back as line
      feeds). */
  lemma PackUnpack(dir: seq<DirEntry>, fold: bool)
    requires Listing(dir)
    requires Representable(Select(dir))
    ensures Pack(Some(dir), fold).Success?
    ensures Unpack(Some(Pack(Some(dir), fold).value), false, fold) == Success(Expected(Select(dir), fold))
  {
    LayoutRoundTrip(Select(dir), fold);
  }

  /** The round trip for the included entries themselves, whatever listing
      they came from. */
  lemma LayoutRoundTrip(items: seq<Item>, fold: bool)
    requires AllWellFormed(items) && Representable(items)
    ensures Unpack(Some(Layout(items, fold)), false, fold) == Success(Expected(items, fold))
  {
    var files := Expected(items, fold);
    EveryTurnSucceeds(items, fold);
    ExtractAll(Layout(items, fold), |items|, 0, fold, files);
    assert files[0..] == files;
  }

  /** Every turn of the extraction loop on a packed archive yields its
      expected file. */
  lemma EveryTurnSucceeds(items: seq<Item>, fold: bool)
    requires AllWellFormed(items) && Representable(items)
    ensures forall j | 0 <= j < |items| ::
      ReadEntry(Layout(items, fold), |items|, j, fold) == Success(Expected(items, fold)[j])
  {
    forall j | 0 <= j < |items|
      ensures ReadEntry(Layout(items, fold), |items|, j, fold) == Success(Expected(items, fold)[j])
    {
      ExtractStep(items, fold, j);
    }
  }

  /** With the fold off, or with no NUL in the folded entries, the round trip
      is exact: every file comes back byte for byte. */
  lemma PackUnpackExact(dir: seq<DirEntry>, fold: bool)
    requires Listing(dir)
    requires Representable(Select(dir))
    requires forall i | 0 <= i < |Select(dir)| ::
      !Payload.Folds(fold, Select(dir)[i].tag) || Payload.Nul !in Select(dir)[i].data
    ensures Pack(Some(dir), fold).Success?
    ensures
      var r := Unpack(Some(Pack(Some(dir), fold).value), false, fold);
      && r.Success? && |r.value| == |Select(dir)|
      && forall i | 0 <= i < |Select(dir)| :: r.value[i].data == Select(dir)[i].data
  {
    PackUnpack(dir, fold);
    ExpectedExact(Select(dir), fold);
  }

  /** The expected contents are the original contents exactly when no
      folded entry holds a NUL. */
  lemma ExpectedExact(items: seq<Item>, fold: bool)
    requires forall i | 0 <= i < |items| ::
      !Payload.Folds(fold, items[i].tag) || Payload.Nul !in items[i].data
    ensures forall i | 0 <= i < |items| :: Expected(items, fold)[i].data == items[i].data
  {
    forall i | 0 <= i < |items|
      ensures Expected(items, fold)[i].data == items[i].data
    {
      Payload.PayloadRoundTripExact(items[i].data, fold, items[i].tag);
      Payload.PayloadRoundTrip(items[i].data, fold, items[i].tag);
    }
  }
}

=== FILE: bytes.dfy ===
/** Byte-level vocabulary shared by the SDF codec: unsigned chars and their
    wrap-around arithmetic, the 32-bit big-endian field layout written by
    `write_big_endian`, conversions between names and bytes, and the
    concatenation of byte blocks that an archive is made of. */
module Bytes {

  /** An `unsigned char`. */
  type byte = b: int | 0 <= b < 0x100

  const TwoTo24: nat := 0x100_0000
  const TwoTo31: nat := 0x8000_0000
  const TwoTo32: nat := 0x1_0000_0000

  /** `b += k` on unsigned chars: the sum is truncated back to eight bits. */
  function AddWrap(b: byte, k: byte): byte {
    (b + k) % 0x100
  }

  /** `b -= k` on unsigned chars (Dafny's `%` never yields a negative value). */
  function SubWrap(b: byte, k: byte): byte {
    (b - k) % 0x100
  }

  /** Subtracting a key undoes adding it, whatever the byte and the key. */
  lemma SubWrapUndoesAddWrap(b: byte, k: byte)
    ensures SubWrap(AddWrap(b, k), k) == b
  {
  }

  /** Adding a key undoes subtracting it, so the pair is a bijection on bytes. */
  lemma AddWrapUndoesSubWrap(b: byte, k: byte)
    ensures AddWrap(SubWrap(b, k), k) == b
  {
  }

  /** The number a big-endian byte string denotes: the reader's
      `b0 << 24 | b1 << 16 | b2 << 8 | b3` for four bytes, and the
      24-bit size for three. */
  function BigEndianValue(bs: seq<byte>): nat {
    if |bs| == 0 then 0 else BigEndianValue(bs[..|bs| - 1]) * 0x100 + bs[|bs| - 1] as int
  }

  /** `write_big_endian`: byte k is `(n >> (24 - 8k)) & 0xff`, computed here
      by repeated division by 256. Recombining the bytes gives `n` back. */
  function BigEndian32(n: nat): (r: seq<byte>)
    requires n < TwoTo32
    ensures |r| == 4
    ensures BigEndianValue(r) == n
  {
    var n1 := n / 0x100;
    var n2 := n1 / 0x100;
    var r := [n2 / 0x100, n2 % 0x100, n1 % 0x100, n % 0x100];
    BigEndianValueOfFour(r);
    r
  }

  /** The value of a four-byte string, spelled out. */
  lemma BigEndianValueOfFour(r: seq<byte>)
    requires |r| == 4
    ensures BigEndianValue(r) == ((r[0] as int * 0x100 + r[1]) * 0x100 + r[2]) * 0x100 + r[3]
    ensures BigEndianValue(r[1..]) == (r[1] as int * 0x100 + r[2]) * 0x100 + r[3]
  {
    assert BigEndianValue(r[..1]) == r[0];
    assert r[..3][..2] == r[..2];
    assert r[..2][..1] == r[..1];
    assert r[..1][..0] == [];
    assert BigEndianValue(r[..2]) == r[0] as int * 0x100 + r[1];
    assert BigEndianValue(r[..3]) == (r[0] as int * 0x100 + r[1]) * 0x100 + r[2];
    var low := r[1..];
    assert low[..2] == r[1..3];
    assert low[..2][..1] == low[..1];
    assert low[..1][..0] == [];
    assert BigEndianValue(low[..1]) == r[1];
  }

  /** Dropping the top byte of a big-endian word keeps the value modulo 2^24:
      this is what the type tag's overwrite does to the size field. */
  lemma LowBytesOfBigEndian32(n: nat)
    requires n < TwoTo32
    ensures BigEndianValue(BigEndian32(n)[1..]) == n % TwoTo24
  {
    var r := BigEndian32(n);
    BigEndianValueOfFour(r);
    var low := (r[1] as int * 0x100 + r[2]) * 0x100 + r[3];
    assert 0 <= low < 0x100_0000;
    assert n == r[0] as int * 0x100_0000 + low;
    ModOfSplit(r[0], low);
  }

  /** Splitting off a multiple of 2^24 leaves the remainder. */
  lemma ModOfSplit(q: nat, low: nat)
    requires low < 0x100_0000
    ensures (q * 0x100_0000 + low) % TwoTo24 == low
  {
  }

  /** A character string whose every character fits in one byte. */
  predicate Narrow(s: string) {
    forall i | 0 <= i < |s| :: s[i] as int < 0x100
  }

  /** The bytes of a narrow string, one per character. */
  function FromChars(s: string): (r: seq<byte>)
    requires Narrow(s)
    ensures |r| == |s|
    ensures forall i | 0 <= i < |s| :: r[i] == s[i] as int
  {
    seq(|s|, i requires 0 <= i < |s| => s[i] as int)
  }

  /** The characters of a byte string, one per byte. */
  function ToChars(bs: seq<byte>): (s: string)
    ensures Narrow(s)
    ensures |s| == |bs|
    ensures forall i | 0 <= i < |bs| :: s[i] as int == bs[i]
  {
    seq(|bs|, i requires 0 <= i < |bs| => bs[i] as char)
  }

  /** Reading back the bytes of a narrow string gives the string. */
  lemma ToCharsFromChars(s: string)
    requires Narrow(s)
    ensures ToChars(FromChars(s)) == s
  {
    var t := ToChars(FromChars(s));
    assert forall i | 0 <= i < |s| :: t[i] as int == s[i] as int;
  }

  /** A byte string holding `n` copies of `b`. */
  function Fill(n: nat, b: byte): (r: seq<byte>)
    ensures |r| == n
    ensures forall i | 0 <= i < n :: r[i] == b
  {
    seq(n, _ => b)
  }

  /** The concatenation of a sequence of blocks, in order. */
  function Flatten<T>(blocks: seq<seq<T>>): seq<T> {
    if |blocks| == 0 then [] else blocks[0] + Flatten(blocks[1..])
  }

  /** Flattening distributes over concatenation of the block lists. */
  lemma {:induction false} FlattenAppend<T>(a: seq<seq<T>>, b: seq<seq<T>>)
    ensures Flatten(a + b) == Flatten(a) + Flatten(b)
    decreases |a|
  {
    if |a| == 0 {
      assert a + b == b;
    } else {
      assert (a + b)[1..] == a[1..] + b;
      FlattenAppend(a[1..], b);
    }
  }

  /** When every block has width `w`, the concatenation of `k` blocks is `w * k` long. */
  lemma {:induction false} FlattenUniformLength<T>(blocks: seq<seq<T>>, w: nat)
    requires forall j | 0 <= j < |blocks| :: |blocks[j]| == w
    ensures |Flatten(blocks)| == w * |blocks|
    decreases |blocks|
  {
    if |blocks| > 0 {
      FlattenUniformLength(blocks[1..], w);
    }
  }

  /** Block `i` sits in the concatenation right after the blocks before it. */
  lemma FlattenSlice<T>(blocks: seq<seq<T>>, i: nat)
    requires i < |blocks|
    ensures |Flatten(blocks[..i])| + |blocks[i]| <= |Flatten(blocks)|
    ensures Flatten(blocks)[|Flatten(blocks[..i])|..|Flatten(blocks[..i])| + |blocks[i]|] == blocks[i]
  {
    assert blocks == blocks[..i] + ([blocks[i]] + blocks[i + 1..]);
    FlattenAppend(blocks[..i], [blocks[i]] + blocks[i + 1..]);
    assert Flatten([blocks[i]] + blocks[i + 1..]) == blocks[i] + Flatten(blocks[i + 1..]);
  }

  /** A slice taken inside the middle part of a three-part concatenation. */
  lemma SliceOfMiddle<T>(a: seq<T>, b: seq<T>, c: seq<T>, lo: nat, hi: nat)
    requires lo <= hi <= |b|
    ensures (a + b + c)[|a| + lo..|a| + hi] == b[lo..hi]
  {
    var s := a + b + c;
    assert forall k | 0 <= k < hi - lo :: s[|a| + lo..|a| + hi][k] == b[lo..hi][k];
  }

  /** A non-empty suffix is its first element followed by the next suffix. */
  lemma SuffixCons<T>(s: seq<T>, i: nat)
    requires i < |s|
    ensures s[i..] == [s[i]] + s[i + 1..]
  {
  }

  /** A prefix of a suffix is a slice. */
  lemma PrefixOfSuffix<T>(s: seq<T>, k: nat, e: nat)
    requires k + e <= |s|
    ensures s[k..][..e] == s[k..k + e]
    ensures k + e < |s| ==> s[k..][e] == s[k + e]
  {
  }

  /** Length of the longest prefix of `s` whose elements all satisfy `p`:
      where a `scanf` conversion over a character class stops. */
  function Run<T>(s: seq<T>, p: T -> bool): (n: nat)
    ensures n <= |s|
    ensures forall i | 0 <= i < n :: p(s[i])
    ensures n < |s| ==> !p(s[n])
  {
    if |s| == 0 || !p(s[0]) then 0 else 1 + Run(s[1..], p)
  }

  /** The run over `s + t` stops exactly at the end of `s` when all of `s`
      qualifies and `t` starts with an element that does not. */
  lemma {:induction false} RunOfPrefix<T>(s: seq<T>, t: seq<T>, p: T -> bool)
    requires forall i | 0 <= i < |s| :: p(s[i])
    requires |t| == 0 || !p(t[0])
    ensures Run(s + t, p) == |s|
    decreases |s|
  {
    if |s| > 0 {
      assert (s + t)[1..] == s[1..] + t;
      RunOfPrefix(s[1..], t, p);
    } else {
      assert s + t == t;
    }
  }

  /** C's `isspace` in the default locale: space, tab, line feed, vertical
      tab, form feed and carriage return. */
  predicate IsSpaceByte(b: byte) {
    b == 32 || 9 <= b <= 13
  }
}

=== FILE: filename.dfy ===
/** The split of a directory entry name into stem and extension done by
    `sscanf(name, "%[^.\r\n].%s", stem, ext)` in the packer's scan loop. */
module FileName {
  import opened Wrappers
  import opened Bytes

  /** Size of the stem buffer `name[FILENAME_LEN]`, terminator included. */
  const StemCapacity: nat := 32
  /** Size of the extension buffer `ext[EXTENSION_LEN]`, terminator included. */
  const ExtCapacity: nat := 8

  /** The characters `%[^.\r\n]` accepts. */
  predicate InStem(c: char) {
    c != '.' && c != '\r' && c != '\n'
  }

  /** `IsSpaceByte` on a character of a name; `%s` skips these and stops
      at them. */
  predicate IsSpace(c: char) {
    c as int < 0x100 && IsSpaceByte(c as int)
  }

  predicate InToken(c: char) {
    !IsSpace(c)
  }

  datatype Parts = Parts(stem: string, ext: string)

  /** What the `sscanf` call stores: the non-empty run of stem characters,
      then, after a literal '.', the first whitespace-delimited token.
      None when either conversion fails, which leaves the corresponding
      buffer unset in the source. */
  function Scan(name: string): (r: Option<Parts>)
    ensures r.Some? ==> |r.value.stem| > 0 && |r.value.ext| > 0
    ensures r.Some? ==> forall i | 0 <= i < |r.value.stem| :: InStem(r.value.stem[i])
    ensures r.Some? ==> forall i | 0 <= i < |r.value.ext| :: !IsSpace(r.value.ext[i])
    ensures r.Some? ==>
      && |r.value.stem| < |name|
      && name[..|r.value.stem|] == r.value.stem
      && name[|r.value.stem|] == '.'
    ensures |name| > 0 && !InStem(name[0]) ==> r.None?
  {
    var k := Run(name, InStem);
    if k == 0 || k == |name| || name[k] != '.' then None
    else
      var rest := name[k + 1..];
      var tail := rest[Run(rest, IsSpace)..];
      var e := Run(tail, InToken);
      if e == 0 then None else Some(Parts(name[..k], tail[..e]))
  }

  /** Where `%s` takes the extension from: after the '.' that ends the
      stem, it skips the leading white space and takes the characters up to
      the next white space or the end of the name. */
  lemma ScanTakesFirstToken(name: string)
    requires Scan(name).Some?
    ensures
      var parts := Scan(name).value;
      var rest := name[|parts.stem| + 1..];
      var k := Run(rest, IsSpace);
      && k + |parts.ext| <= |rest|
      && parts.ext <= rest[k..]
      && (k + |parts.ext| == |rest| || IsSpace(rest[k + |parts.ext|]))
  {
    ScanSplits(name);
    var parts := Scan(name).value;
    var rest := name[|parts.stem| + 1..];
    assert rest == name[Run(name, InStem) + 1..];
    FirstToken(rest);
    var k := Run(rest, IsSpace);
    var e := Run(rest[k..], InToken);
    assert parts.ext == rest[k..][..e];
    assert |parts.ext| == e;
    assert parts.ext <= rest[k..];
  }

  /** The parts `Scan` returns: the run of stem characters, and the run of
      token characters after the white space that follows the '.'. */
  lemma ScanSplits(name: string)
    requires Scan(name).Some?
    ensures
      var k := Run(name, InStem);
      var rest := name[k + 1..];
      var tail := rest[Run(rest, IsSpace)..];
      && k < |name|
      && |Scan(name).value.stem| == k
      && Scan(name).value.ext == tail[..Run(tail, InToken)]
  {
  }

  /** The token `%s` reads from `rest` starts right after the leading white
      space, and white space or the end of `rest` follows it. */
  lemma FirstToken(rest: string)
    ensures
      var k := Run(rest, IsSpace);
      var e := Run(rest[k..], InToken);
      && k + e <= |rest|
      && (k + e == |rest| || IsSpace(rest[k + e]))
  {
    var k := Run(rest, IsSpace);
    PrefixOfSuffix(rest, k, Run(rest[k..], InToken));
  }

  /** A name the scan loop handles without undefined behaviour: it is a C
      string of bytes (no NUL, every character one byte), both conversions
      succeed, and each result fits its buffer with its terminator. */
  predicate Admissible(name: string) {
    && Narrow(name)
    && '\0' !in name
    && Scan(name).Some?
    && |Scan(name).value.stem| < StemCapacity
    && |Scan(name).value.ext| < ExtCapacity
  }

  /** Splitting `stem.ext` gives back `stem` and `ext` whenever the stem has
      no '.', CR or LF and the extension has no whitespace. */
  lemma {:induction false} ScanJoin(stem: string, ext: string)
    requires |stem| > 0 && |ext| > 0
    requires forall i | 0 <= i < |stem| :: InStem(stem[i])
    requires forall i | 0 <= i < |ext| :: !IsSpace(ext[i])
    ensures Scan(stem + "." + ext) == Some(Parts(stem, ext))
  {
    var name := stem + "." + ext;
    assert name == stem + ("." + ext);
    RunOfPrefix(stem, "." + ext, InStem);
    assert name[|stem|] == '.';
    var rest := name[|stem| + 1..];
    assert rest == ext;
    RunOfPrefix([], ext, IsSpace);
    assert [] + ext == ext;
    assert Run(rest, IsSpace) == 0;
    assert rest[0..] == ext;
    RunOfPrefix(ext, [], InToken);
    assert ext + [] == ext;
    assert Run(ext, InToken) == |ext|;
    assert ext[..|ext|] == ext;
    assert name[..|stem|] == stem;
  }
}

=== FILE: header.dfy ===
/** The fixed 64-byte archive header written by `pack`: a dash line, the
    magic string, the decimal file count padded with spaces, a dash line;
    and the reader's magic check and `fscanf("%d")` count parse. */
module Header {
  import opened Bytes

  const HeaderWidth: nat := 64
  const LineWidth: nat := 16
  const Dash: byte := 45
  const Space: byte := 32
  const Digit0: byte := 48

  /** The 16-dash filler line; it also ends the index table. */
  function Dashes(): (r: seq<byte>)
    ensures |r| == LineWidth
    ensures forall i | 0 <= i < |r| :: r[i] == Dash
  {
    Fill(LineWidth, Dash)
  }

  /** "SOULFU DATA FILE", the bytes the reader compares at offset 16. */
  function Magic(): (r: seq<byte>)
    ensures |r| == LineWidth
  {
    FromChars("SOULFU DATA FILE")
  }

  /** " files", written after the count. */
  function FilesSuffix(): (r: seq<byte>)
    ensures |r| == 6
  {
    FromChars(" files")
  }

  predicate IsDigit(b: byte) {
    Digit0 <= b < Digit0 + 10
  }

  /** `%d` for a non-negative int: the decimal digits, most significant first,
      without leading zeros. */
  function Decimal(n: nat): (r: seq<byte>)
    ensures |r| > 0
    ensures forall i | 0 <= i < |r| :: IsDigit(r[i])
  {
    if n < 10 then [Digit0 + n] else Decimal(n / 10) + [Digit0 + n % 10]
  }

  /** The number a string of decimal digits denotes. */
  function DigitsValue(ds: seq<byte>): nat
    requires forall i | 0 <= i < |ds| :: IsDigit(ds[i])
  {
    if |ds| == 0 then 0
    else
      assert IsDigit(ds[|ds| - 1]);
      DigitsValue(ds[..|ds| - 1]) * 10 + (ds[|ds| - 1] - Digit0) as nat
  }

  /** Reading the digits `%d` prints gives the number back. */
  lemma {:induction false} DecimalValue(n: nat)
    ensures DigitsValue(Decimal(n)) == n
  {
    var ds := Decimal(n);
    if n >= 10 {
      DecimalValue(n / 10);
      assert ds[..|ds| - 1] == Decimal(n / 10);
    }
  }

  function Pow10(k: nat): nat {
    if k == 0 then 1 else 10 * Pow10(k - 1)
  }

  /** A number below 10^k prints in at most k digits. */
  lemma {:induction false} DecimalWidth(n: nat, k: nat)
    requires 0 < k && n < Pow10(k)
    ensures |Decimal(n)| <= k
  {
    if n >= 10 {
      assert k > 1;
      DecimalWidth(n / 10, k - 1);
    }
  }

  /** A count the packer can hold in its `int filenum` prints in at most ten
      digits, so "<N> files" fits the 16-byte slot. */
  lemma CountFits(n: nat)
    requires n < TwoTo31
    ensures |Decimal(n)| + |FilesSuffix()| <= LineWidth
  {
    assert Pow10(10) == 10_000_000_000;
    DecimalWidth(n, 10);
  }

  /** `fprintf("%d files")` followed by `16 - written` spaces. */
  function CountField(n: nat): (r: seq<byte>)
    requires n < TwoTo31
    ensures |r| == LineWidth
  {
    CountFits(n);
    var text := Decimal(n) + FilesSuffix();
    text + Fill(LineWidth - |text|, Space)
  }

  /** The header `pack` writes for `n` included files: 64 bytes, the magic
      string in bytes 16-31, dash lines around it, and a count field that
      the reader parses back to `n`. */
  function Header(n: nat): (r: seq<byte>)
    requires n < TwoTo31
    ensures |r| == HeaderWidth
    ensures r[..LineWidth] == Dashes() && r[48..HeaderWidth] == Dashes()
    ensures r[LineWidth..32] == Magic()
    ensures r[32..48] == CountField(n)
  {
    Dashes() + Magic() + CountField(n) + Dashes()
  }

  /** The reader's count parse at byte 32 gives back the count, whatever
      follows the header. */
  lemma HeaderCount(n: nat, rest: seq<byte>)
    requires n < TwoTo31
    ensures ParseInt(Header(n)[32..] + rest) == n
  {
    var r := Header(n);
    assert r[32..] + rest == CountField(n) + (Dashes() + rest);
    ParseCountField(n, Dashes() + rest);
  }

  /** Whatever follows the header, the reader finds the magic string at byte
      16 and parses the count at byte 32. */
  lemma HeaderPrefix(n: nat, rest: seq<byte>)
    requires n < TwoTo31
    ensures |Header(n) + rest| == HeaderWidth + |rest|
    ensures (Header(n) + rest)[LineWidth..32] == Magic()
    ensures ParseInt((Header(n) + rest)[32..]) == n
  {
    var h := Header(n);
    assert (h + rest)[LineWidth..32] == h[LineWidth..32];
    assert (h + rest)[32..] == h[32..] + rest;
    HeaderCount(n, rest);
  }

  /** `fscanf(input, "%d", &filenum)` with `filenum` starting at 0: skip
      white space, take an optional sign and the digits after it; when no
      digit follows, the conversion fails and the count stays 0. */
  function ParseInt(s: seq<byte>): int {
    var t := s[Run(s, IsSpaceByte)..];
    var signed := |t| > 0 && (t[0] == '-' as int || t[0] == '+' as int);
    var u := if signed then t[1..] else t;
    var k := Run(u, IsDigit);
    if k == 0 then 0
    else if signed && t[0] == '-' as int then -(DigitsValue(u[..k]) as int)
    else DigitsValue(u[..k])
  }

  /** The count field, whatever follows it in the file, parses to the count. */
  lemma ParseCountField(n: nat, rest: seq<byte>)
    requires n < TwoTo31
    ensures ParseInt(CountField(n) + rest) == n
  {
    var ds := Decimal(n);
    var tail := CountField(n)[|ds|..] + rest;
    var s := CountField(n) + rest;
    assert s == ds + tail;
    assert tail[0] == Space;
    RunOfPrefix(ds, tail, IsDigit);
    RunOfPrefix([], s, IsSpaceByte);
    assert [] + s == s;
    assert s[0..] == s;
    assert s[..|ds|] == ds;
    DecimalValue(n);
  }
}

=== FILE: index.dfy ===
/** The packer's directory scan and offset bookkeeping: which directory
    entries become index entries, and the running payload offset `pos`. */
module IndexBuilder {
  import opened Wrappers
  import opened Bytes
  import Registry
  import FileName

  /** A directory entry as `readdir` lists it, with the file's contents. */
  datatype DirEntry = DirEntry(name: string, data: seq<byte>)

  /** An entry that goes into the archive: the scanned stem and extension,
      the extension's tag, and the file's contents. */
  datatype Item = Item(stem: string, ext: string, tag: nat, data: seq<byte>)

  predicate IsDotEntry(name: string) {
    name == "." || name == ".."
  }

  /** An entry the scan loop handles without undefined behaviour. */
  predicate Listable(e: DirEntry) {
    IsDotEntry(e.name) || FileName.Admissible(e.name)
  }

  predicate Listing(dir: seq<DirEntry>) {
    forall i | 0 <= i < |dir| :: Listable(dir[i])
  }

  /** An item as the scan produces it: a real tag matching its extension,
      and a stem that fits the record's name conversion. */
  predicate WellFormed(it: Item) {
    && Registry.IsValidTag(it.tag)
    && Registry.Extensions[it.tag] == it.ext
    && |it.stem| > 0
    && Narrow(it.stem)
    && '\0' !in it.stem
  }

  /** One step of the scan loop: "." and ".." are passed over, and a name
      whose extension the registry does not know yields no item. */
  function Classify(e: DirEntry): (r: Option<Item>)
    requires Listable(e)
    ensures r.Some? ==> WellFormed(r.value) && r.value.data == e.data
    ensures r.Some? <==>
      !IsDotEntry(e.name) && Registry.TypeFromExt(FileName.Scan(e.name).value.ext) != Registry.ExtBad
    ensures r.Some? ==>
      && r.value.stem == FileName.Scan(e.name).value.stem
      && r.value.ext == FileName.Scan(e.name).value.ext
      && r.value.tag == Registry.TypeFromExt(r.value.ext)
  {
    if IsDotEntry(e.name) then None
    else
      var parts := FileName.Scan(e.name).value;
      var tag := Registry.TypeFromExt(parts.ext);
      assert Narrow(parts.stem) && '\0' !in parts.stem by {
        assert e.name[..|parts.stem|] == parts.stem;
      }
      if tag == Registry.ExtBad then None else Some(Item(parts.stem, parts.ext, tag, e.data))
  }

  /** Joining a stem and an extension of letters with a '.' keeps every
      character one byte wide and brings in no NUL. */
  lemma JoinedNameIsCString(stem: string, ext: string)
    requires Narrow(stem) && '\0' !in stem
    requires forall i | 0 <= i < |ext| :: 'A' <= ext[i] <= 'Z'
    ensures Narrow(stem + "." + ext) && '\0' !in stem + "." + ext
  {
    var name := stem + "." + ext;
    forall i | 0 <= i < |name|
      ensures name[i] as int < 0x100 && name[i] != '\0'
    {
      if i < |stem| {
        assert name[i] == stem[i];
      } else if i > |stem| {
        assert name[i] == ext[i - |stem| - 1];
      }
    }
  }

  /** The name `stem.EXT`, for a registry extension EXT and a stem the scan
      accepts, is a name the scan loop handles, and it splits back into
      `stem` and EXT. */
  lemma JoinedNameScans(stem: string, t: nat)
    requires 0 < |stem| < FileName.StemCapacity
    requires forall i | 0 <= i < |stem| :: FileName.InStem(stem[i])
    requires Narrow(stem) && '\0' !in stem
    requires Registry.IsValidTag(t)
    ensures FileName.Scan(stem + "." + Registry.Extensions[t])
            == Some(FileName.Parts(stem, Registry.Extensions[t]))
    ensures FileName.Admissible(stem + "." + Registry.Extensions[t])
    ensures !IsDotEntry(stem + "." + Registry.Extensions[t])
  {
    var ext := Registry.Extensions[t];
    Registry.ExtensionShape(t);
    JoinedNameIsCString(stem, ext);
    FileName.ScanJoin(stem, ext);
    assert |stem + "." + ext| >= 5;
  }

  /** A file named `stem.EXT` becomes the item with that stem, extension and
      tag. */
  lemma ClassifyJoin(stem: string, t: nat, data: seq<byte>)
    requires 0 < |stem| < FileName.StemCapacity
    requires forall i | 0 <= i < |stem| :: FileName.InStem(stem[i])
    requires Narrow(stem) && '\0' !in stem
    requires Registry.IsValidTag(t)
    ensures Listable(DirEntry(stem + "." + Registry.Extensions[t], data))
    ensures Classify(DirEntry(stem + "." + Registry.Extensions[t], data))
            == Some(Item(stem, Registry.Extensions[t], t, data))
  {
    JoinedNameScans(stem, t);
    Registry.TypeOfExtension(t);
  }

  /** The included entries in scan order: those counted by `filenum` and
      written to the index and payload. */
  function Select(dir: seq<DirEntry>): (items: seq<Item>)
    requires Listing(dir)
    ensures |items| <= |dir|
    ensures forall i | 0 <= i < |items| :: WellFormed(items[i])
  {
    if |dir| == 0 then []
    else
      match Classify(dir[0])
      case Some(it) => [it] + Select(dir[1..])
      case None => Select(dir[1..])
  }

  /** Joining two listings gives a listing. */
  lemma ListingAppend(a: seq<DirEntry>, b: seq<DirEntry>)
    requires Listing(a) && Listing(b)
    ensures Listing(a + b)
  {
    forall i | 0 <= i < |a + b|
      ensures Listable((a + b)[i])
    {
      if i >= |a| {
        assert (a + b)[i] == b[i - |a|];
      }
    }
  }

  /** The scan distributes over a split of the listing. */
  lemma {:induction false} SelectAppend(a: seq<DirEntry>, b: seq<DirEntry>)
    requires Listing(a) && Listing(b)
    ensures Listing(a + b)
    ensures Select(a + b) == Select(a) + Select(b)
    decreases |a|
  {
    ListingAppend(a, b);
    if |a| > 0 {
      var rest := a[1..] + b;
      assert (a + b)[0] == a[0];
      assert (a + b)[1..] == rest;
      SelectAppend(a[1..], b);
      match Classify(a[0])
      case Some(it) =>
        assert Select(a + b) == [it] + Select(rest);
        assert [it] + Select(a[1..]) + Select(b) == [it] + (Select(a[1..]) + Select(b));
      case None =>
        assert Select(a + b) == Select(rest);
    } else {
      assert a + b == b;
    }
  }

  /** An entry with an unrecognised extension leaves no trace: the listing
      with it selects exactly what the listing without it selects. */
  lemma SkippedEntryIsInvisible(a: seq<DirEntry>, e: DirEntry, b: seq<DirEntry>)
    requires Listing(a) && Listable(e) && Listing(b)
    requires Classify(e).None?
    ensures Listing(a + [e] + b) && Listing(a + b)
    ensures Select(a + [e] + b) == Select(a + b)
  {
    assert Select([e]) == [] by {
      assert [e][0] == e;
      assert [e][1..] == [];
    }
    assert Listing(a + [e]) && Select(a + [e]) == Select(a) by {
      SelectAppend(a, [e]);
      assert Select(a) + [] == Select(a);
    }
    assert Listing(a + [e] + b) && Select(a + [e] + b) == Select(a) + Select(b) by {
      SelectAppend(a + [e], b);
    }
    assert Listing(a + b) && Select(a + b) == Select(a) + Select(b) by {
      SelectAppend(a, b);
    }
  }

  /** `ftell` stored into `unsigned int size`: the file length modulo 2^32. */
  function Size(it: Item): (r: nat)
    ensures r < TwoTo32
    ensures |it.data| < TwoTo32 <==> r == |it.data|
  {
    |it.data| % TwoTo32
  }

  /** Sum of the sizes, without wrap-around. */
  function TotalSize(items: seq<Item>): nat {
    if |items| == 0 then 0 else Size(items[0]) + TotalSize(items[1..])
  }

  lemma {:induction false} TotalSizeAppend(a: seq<Item>, b: seq<Item>)
    ensures TotalSize(a + b) == TotalSize(a) + TotalSize(b)
    decreases |a|
  {
    if |a| > 0 {
      assert (a + b)[1..] == a[1..] + b;
      TotalSizeAppend(a[1..], b);
    } else {
      assert a + b == b;
    }
  }

  /** The offsets `pack` assigns, starting from `start`: each entry gets the
      current `pos`, then `pos += size` in unsigned 32-bit arithmetic. */
  function Positions(items: seq<Item>, start: nat): (ps: seq<nat>)
    requires start < TwoTo32
    ensures |ps| == |items|
    ensures forall i | 0 <= i < |ps| :: ps[i] < TwoTo32
    ensures |ps| > 0 ==> ps[0] == start
  {
    if |items| == 0 then []
    else [start] + Positions(items[1..], (start + Size(items[0])) % TwoTo32)
  }

  /** Each offset is the one before it plus that entry's size, wrapped to
      32 bits. */
  lemma {:induction false} PositionsStep(items: seq<Item>, start: nat, i: nat)
    requires start < TwoTo32
    requires i + 1 < |items|
    ensures Positions(items, start)[i + 1] == (Positions(items, start)[i] + Size(items[i])) % TwoTo32
    decreases i
  {
    var next := (start + Size(items[0])) % TwoTo32;
    assert Positions(items, start) == [start] + Positions(items[1..], next);
    if i > 0 {
      PositionsStep(items[1..], next, i - 1);
      assert items[1..][i - 1] == items[i];
    }
  }

  /** While the sizes add up to less than 2^32, each offset is the sum of the
      sizes of the entries before it. */
  lemma {:induction false} PositionsArePrefixSums(items: seq<Item>, start: nat, i: nat)
    requires start + TotalSize(items) < TwoTo32
    requires i < |items|
    ensures Positions(items, start)[i] == start + TotalSize(items[..i])
    decreases i
  {
    if i == 0 {
      assert items[..0] == [];
    } else {
      var next := start + Size(items[0]);
      assert next + TotalSize(items[1..]) < TwoTo32;
      PositionsArePrefixSums(items[1..], next, i - 1);
      PositionsTail(items, start, i);
      TotalSizeOfFront(items, i);
    }
  }

  /** Past the first entry, the offsets are those of the rest of the list,
      started after the first entry. */
  lemma PositionsTail(items: seq<Item>, start: nat, i: nat)
    requires 0 < i < |items|
    requires start + Size(items[0]) < TwoTo32
    ensures Positions(items, start)[i] == Positions(items[1..], start + Size(items[0]))[i - 1]
  {
    assert (start + Size(items[0])) % TwoTo32 == start + Size(items[0]);
  }

  lemma TotalSizeOfFront(items: seq<Item>, i: nat)
    requires 0 < i <= |items|
    ensures TotalSize(items[..i]) == Size(items[0]) + TotalSize(items[1..][..i - 1])
  {
    assert items[..i][1..] == items[1..][..i - 1];
  }

  /** Entry i's offset, in the absence of wrap-around, is the sum of the
      sizes before it. */
  lemma PositionIsPrefixSum(items: seq<Item>, i: nat)
    requires TotalSize(items) < TwoTo32
    requires i < |items|
    ensures Positions(items, 0)[i] == TotalSize(items[..i])
  {
    PositionsArePrefixSums(items, 0, i);
  }

  lemma TotalSizeOfPrefix(items: seq<Item>, i: nat)
    requires i < |items|
    ensures TotalSize(items[..i + 1]) == TotalSize(items[..i]) + Size(items[i])
  {
    assert items[..i + 1] == items[..i] + [items[i]];
    TotalSizeAppend(items[..i], [items[i]]);
    assert TotalSize([items[i]]) == Size(items[i]);
  }

  /** Entry i's interval ends at the sum of the sizes up to and including it. */
  lemma IntervalEnd(items: seq<Item>, i: nat)
    requires TotalSize(items) < TwoTo32
    requires i < |items|
    ensures Positions(items, 0)[i] + Size(items[i]) == TotalSize(items[..i + 1])
  {
    PositionIsPrefixSum(items, i);
    TotalSizeOfPrefix(items, i);
  }

  /** The payload intervals [pos, pos + size) of the entries, when their
      sizes sum below 2^32, follow each other in index order and tile
      [0, total): each starts where the previous ends, the first at 0,
      the last ends at the total, and no two overlap. */
  lemma Tiling(items: seq<Item>)
    requires TotalSize(items) < TwoTo32
    ensures |items| > 0 ==> Positions(items, 0)[0] == 0
    ensures forall i | 0 <= i < |items| - 1 ::
      Positions(items, 0)[i] + Size(items[i]) == Positions(items, 0)[i + 1]
    ensures |items| > 0 ==>
      Positions(items, 0)[|items| - 1] + Size(items[|items| - 1]) == TotalSize(items)
    ensures forall i, j | 0 <= i < j < |items| ::
      Positions(items, 0)[i] + Size(items[i]) <= Positions(items, 0)[j]
  {
    if |items| > 0 {
      LastInterval(items);
    }
    forall i | 0 <= i < |items| - 1
      ensures Positions(items, 0)[i] + Size(items[i]) == Positions(items, 0)[i + 1]
    {
      AdjacentIntervals(items, i);
    }
    forall i, j | 0 <= i < j < |items|
      ensures Positions(items, 0)[i] + Size(items[i]) <= Positions(items, 0)[j]
    {
      IntervalsOrdered(items, i, j);
    }
  }

  /** Entry i + 1's interval starts where entry i's ends. */
  lemma AdjacentIntervals(items: seq<Item>, i: nat)
    requires TotalSize(items) < TwoTo32
    requires i + 1 < |items|
    ensures Positions(items, 0)[i] + Size(items[i]) == Positions(items, 0)[i + 1]
  {
    PositionIsPrefixSum(items, i + 1);
    IntervalEnd(items, i);
  }

  /** The last entry's interval ends at the total size. */
  lemma LastInterval(items: seq<Item>)
    requires TotalSize(items) < TwoTo32
    requires |items| > 0
    ensures Positions(items, 0)[|items| - 1] + Size(items[|items| - 1]) == TotalSize(items)
  {
    IntervalEnd(items, |items| - 1);
    assert items[..|items|] == items;
  }

  /** An earlier entry's interval ends no later than a later entry's starts. */
  lemma IntervalsOrdered(items: seq<Item>, i: nat, j: nat)
    requires TotalSize(items) < TwoTo32
    requires i < j < |items|
    ensures Positions(items, 0)[i] + Size(items[i]) <= Positions(items, 0)[j]
  {
    IntervalEnd(items, i);
    PositionIsPrefixSum(items, j);
    TotalSizeMonotone(items, i + 1, j);
  }

  /** A longer prefix never has a smaller total size. */
  lemma TotalSizeMonotone(items: seq<Item>, i: nat, j: nat)
    requires i <= j <= |items|
    ensures TotalSize(items[..i]) <= TotalSize(items[..j])
  {
    assert items[..j] == items[..i] + items[i..j];
    TotalSizeAppend(items[..i], items[i..j]);
  }

  /** Every payload offset below the total lies in exactly one entry's interval. */
  lemma {:induction false} EveryByteHasOneOwner(items: seq<Item>, k: nat)
    requires TotalSize(items) < TwoTo32
    requires k < TotalSize(items)
    ensures exists i :: 0 <= i < |items| && Positions(items, 0)[i] <= k < Positions(items, 0)[i] + Size(items[i])
    ensures forall i, j |
      && 0 <= i < |items| && Positions(items, 0)[i] <= k < Positions(items, 0)[i] + Size(items[i])
      && 0 <= j < |items| && Positions(items, 0)[j] <= k < Positions(items, 0)[j] + Size(items[j])
      :: i == j
  {
    var ps := Positions(items, 0);
    Tiling(items);
    var i := Owner(items, k, 0);
    assert ps[i] <= k < ps[i] + Size(items[i]);
  }

  /** The index of the first entry whose interval ends beyond `k`, searching from `from`. */
  function Owner(items: seq<Item>, k: nat, from: nat): (i: nat)
    requires TotalSize(items) < TwoTo32
    requires from < |items| && k < TotalSize(items)
    requires Positions(items, 0)[from] <= k
    ensures from <= i < |items|
    ensures Positions(items, 0)[i] <= k < Positions(items, 0)[i] + Size(items[i])
    decreases |items| - from
  {
    Tiling(items);
    var ps := Positions(items, 0);
    if k < ps[from] + Size(items[from]) then from
    else Owner(items, k, from + 1)
  }
}

=== FILE: payload.dfy ===
/** The payload byte transform: on pack, an optional line-feed to NUL fold
    for text-like types followed by adding OBFUSCATED; on unpack, the
    subtraction followed by the NUL to line-feed restore. */
module Payload {
  import opened Bytes
  import Registry

  /** OBFUSCATED, added to every payload byte. */
  const KeyData: byte := 37
  const LineFeed: byte := 10
  const Nul: byte := 0

  /** Whether the end-of-line fold applies: the `-n` flag is set and the
      entry's type is TXT or SRC. */
  predicate Folds(fold: bool, tag: nat) {
    fold && Registry.IsTextLike(tag)
  }

  /** One payload byte as `pack` writes it. */
  function EncodeByte(b: byte, fold: bool, tag: nat): byte {
    AddWrap(if Folds(fold, tag) && b == LineFeed then Nul else b, KeyData)
  }

  /** One payload byte as `unpack` restores it. */
  function DecodeByte(b: byte, fold: bool, tag: nat): byte {
    var d := SubWrap(b, KeyData);
    if Folds(fold, tag) && d == Nul then LineFeed else d
  }

  function Encode(data: seq<byte>, fold: bool, tag: nat): (r: seq<byte>)
    ensures |r| == |data|
  {
    seq(|data|, i requires 0 <= i < |data| => EncodeByte(data[i], fold, tag))
  }

  function Decode(raw: seq<byte>, fold: bool, tag: nat): (r: seq<byte>)
    ensures |r| == |raw|
  {
    seq(|raw|, i requires 0 <= i < |raw| => DecodeByte(raw[i], fold, tag))
  }

  /** What a payload becomes after packing and unpacking, stated without the
      codec: unchanged, except that a folded entry's NUL bytes come back as
      line feeds. */
  function Restored(data: seq<byte>, fold: bool, tag: nat): (r: seq<byte>)
    ensures |r| == |data|
  {
    if Folds(fold, tag) then
      seq(|data|, i requires 0 <= i < |data| => if data[i] == Nul then LineFeed else data[i])
    else data
  }

  /** A single byte survives the round trip, unless the fold applies and the
      byte is NUL, in which case it comes back as a line feed. */
  lemma ByteRoundTrip(b: byte, fold: bool, tag: nat)
    ensures DecodeByte(EncodeByte(b, fold, tag), fold, tag)
            == (if Folds(fold, tag) && b == Nul then LineFeed else b)
    ensures DecodeByte(EncodeByte(b, fold, tag), fold, tag) == b
            <==> !(Folds(fold, tag) && b == Nul)
  {
    SubWrapUndoesAddWrap(if Folds(fold, tag) && b == LineFeed then Nul else b, KeyData);
  }

  /** Under the fold, a line feed and a NUL are written as the same byte. */
  lemma FoldMergesLineFeedAndNul(fold: bool, tag: nat)
    requires Folds(fold, tag)
    ensures EncodeByte(LineFeed, fold, tag) == EncodeByte(Nul, fold, tag) == KeyData
  {
  }

  /** Unpacking a packed payload gives its restored form. */
  lemma PayloadRoundTrip(data: seq<byte>, fold: bool, tag: nat)
    ensures Decode(Encode(data, fold, tag), fold, tag) == Restored(data, fold, tag)
  {
    var r := Decode(Encode(data, fold, tag), fold, tag);
    forall i | 0 <= i < |data|
      ensures r[i] == Restored(data, fold, tag)[i]
    {
      ByteRoundTrip(data[i], fold, tag);
    }
  }

  /** The payload round trip is exact precisely when the fold does not apply
      or the payload holds no NUL byte. */
  lemma PayloadRoundTripExact(data: seq<byte>, fold: bool, tag: nat)
    ensures Decode(Encode(data, fold, tag), fold, tag) == data
            <==> !Folds(fold, tag) || Nul !in data
  {
    PayloadRoundTrip(data, fold, tag);
    var r := Restored(data, fold, tag);
    if Folds(fold, tag) && Nul in data {
      var k :| 0 <= k < |data| && data[k] == Nul;
      assert r[k] == LineFeed;
    }
  }
}

=== FILE: record.dfy ===
/** The 16-byte index record: how `pack` lays out and obfuscates one entry's
    offset, type tag, size and stem, and how `unpack` recovers them. */
module IndexRecord {
  import opened Bytes
  import Registry

  /** OBFUSCATEA, added to the four offset bytes. */
  const KeyOffset: byte := 97
  /** OBFUSCATEB, added to the type byte and the three size bytes. */
  const KeySize: byte := 11
  /** OBFUSCATEC, added to the eight stem bytes. */
  const KeyStem: byte := 53

  const RecordWidth: nat := 16
  /** Bytes of the stem kept in a record. */
  const StemWidth: nat := 8

  /** The key for record byte `i`. */
  function Key(i: nat): byte {
    if i < 4 then KeyOffset else if i < 8 then KeySize else KeyStem
  }

  /** Adds each byte's key, as `pack` does before writing the record. */
  function Obfuscate(plain: seq<byte>): (r: seq<byte>)
    requires |plain| == RecordWidth
    ensures |r| == RecordWidth
  {
    seq(RecordWidth, i requires 0 <= i < RecordWidth => AddWrap(plain[i], Key(i)))
  }

  /** Subtracts each byte's key, as `unpack` does after reading the record. */
  function Deobfuscate(raw: seq<byte>): (r: seq<byte>)
    requires |raw| == RecordWidth
    ensures |r| == RecordWidth
  {
    seq(RecordWidth, i requires 0 <= i < RecordWidth => SubWrap(raw[i], Key(i)))
  }

  /** De-obfuscation inverts obfuscation on every record. */
  lemma DeobfuscateObfuscate(plain: seq<byte>)
    requires |plain| == RecordWidth
    ensures Deobfuscate(Obfuscate(plain)) == plain
  {
    forall i | 0 <= i < RecordWidth
      ensures Deobfuscate(Obfuscate(plain))[i] == plain[i]
    {
      SubWrapUndoesAddWrap(plain[i], Key(i));
    }
  }

  /** Obfuscation inverts de-obfuscation, so every 16 bytes read decode from
      exactly one plain record. */
  lemma ObfuscateDeobfuscate(raw: seq<byte>)
    requires |raw| == RecordWidth
    ensures Obfuscate(Deobfuscate(raw)) == raw
  {
    forall i | 0 <= i < RecordWidth
      ensures Obfuscate(Deobfuscate(raw))[i] == raw[i]
    {
      AddWrapUndoesSubWrap(raw[i], Key(i));
    }
  }

  /** `strncpy(buff + 8, stem, 8)` for a stem without NUL: its first eight
      characters, zero-padded to eight bytes. */
  function StemField(stem: string): (r: seq<byte>)
    requires Narrow(stem) && '\0' !in stem
    ensures |r| == StemWidth
    ensures forall i | 0 <= i < StemWidth :: r[i] == (if i < |stem| then stem[i] as int else 0)
  {
    if |stem| >= StemWidth then FromChars(stem[..StemWidth])
    else FromChars(stem) + Fill(StemWidth - |stem|, 0)
  }

  /** The bytes of a C string held in a buffer: everything before the first NUL. */
  function CString(bs: seq<byte>): (r: seq<byte>)
    ensures |r| <= |bs| && r == bs[..|r|]
    ensures 0 !in r
    ensures |r| < |bs| ==> bs[|r|] == 0
  {
    if |bs| == 0 || bs[0] == 0 then [] else [bs[0]] + CString(bs[1..])
  }

  /** The record before obfuscation: big-endian offset, the type tag over the
      top byte of the big-endian size, then the stem field. */
  function Plain(pos: nat, size: nat, tag: byte, stem: string): (r: seq<byte>)
    requires pos < TwoTo32 && size < TwoTo32
    requires Narrow(stem) && '\0' !in stem
    ensures |r| == RecordWidth
    ensures r[..4] == BigEndian32(pos)
    ensures r[4] == tag
    ensures r[5..8] == BigEndian32(size)[1..]
    ensures r[8..16] == StemField(stem)
  {
    var offset := BigEndian32(pos);
    var low := BigEndian32(size)[1..];
    var field := StemField(stem);
    var r := offset + [tag] + low + field;
    assert r[..4] == offset && r[4] == tag;
    assert r[5..8] == low && r[8..16] == field;
    r
  }

  /** The sixteen bytes `pack` writes for one entry. */
  function Encode(pos: nat, size: nat, tag: byte, stem: string): (r: seq<byte>)
    requires pos < TwoTo32 && size < TwoTo32
    requires Narrow(stem) && '\0' !in stem
    ensures |r| == RecordWidth
  {
    Obfuscate(Plain(pos, size, tag, stem))
  }

  /** What `unpack` takes from a record: payload offset, payload size, type
      tag, and the file name it reconstructs. */
  datatype View = View(offset: nat, size: nat, tag: nat, name: string)

  /** The decoding in `unpack`: subtract the keys, then read the plain record. */
  function Decode(raw: seq<byte>): (v: View)
    requires |raw| == RecordWidth
    ensures v.offset < TwoTo32
    ensures v.size < TwoTo24
    ensures v.tag < Registry.ExtEnd
  {
    ReadPlain(Deobfuscate(raw))
  }

  /** The fields of a plain record as `unpack` reads them: the type byte
      masked to four bits, the offset from bytes 0-3, the size from bytes 5-7,
      and the name made of the stem up to its first NUL, a '.', and the tag's
      extension. */
  function ReadPlain(p: seq<byte>): (v: View)
    requires |p| == RecordWidth
    ensures v.offset < TwoTo32
    ensures v.size < TwoTo24
    ensures v.tag < Registry.ExtEnd
  {
    var tag := p[4] % 16;
    BigEndianBound(p[..4]);
    BigEndianBound(p[5..8]);
    View(BigEndianValue(p[..4]), BigEndianValue(p[5..8]), tag,
         ToChars(CString(p[8..16])) + "." + Registry.Extensions[tag])
  }

  /** A big-endian string of k bytes denotes a number below 256^k. */
  lemma {:induction false} BigEndianBound(bs: seq<byte>)
    requires |bs| <= 4
    ensures BigEndianValue(bs) < Pow256(|bs|)
    decreases |bs|
  {
    if |bs| > 0 {
      BigEndianBound(bs[..|bs| - 1]);
    }
  }

  function Pow256(k: nat): nat {
    if k == 0 then 1 else 0x100 * Pow256(k - 1)
  }

  /** The first `StemWidth` characters of a stem, which is all a record keeps. */
  function ShortStem(stem: string): (r: string)
    ensures |r| <= StemWidth
  {
    if |stem| <= StemWidth then stem else stem[..StemWidth]
  }

  /** Decoding an encoded record gives back the offset, the tag (for every
      tag the registry can produce), the size modulo 2^24, and the name made
      of the first eight stem characters, '.', and the tag's extension. */
  lemma RecordRoundTrip(pos: nat, size: nat, tag: nat, stem: string)
    requires pos < TwoTo32 && size < TwoTo32
    requires tag < Registry.ExtEnd
    requires Narrow(stem) && '\0' !in stem
    ensures Decode(Encode(pos, size, tag, stem))
            == View(pos, size % TwoTo24, tag, ShortStem(stem) + "." + Registry.Extensions[tag])
  {
    var plain := Plain(pos, size, tag, stem);
    DeobfuscateObfuscate(plain);
    assert Decode(Encode(pos, size, tag, stem)) == ReadPlain(plain);
    ReadPlainOfPlain(pos, size, tag, stem);
  }

  /** The plain-record half of the round trip. */
  lemma ReadPlainOfPlain(pos: nat, size: nat, tag: nat, stem: string)
    requires pos < TwoTo32 && size < TwoTo32
    requires tag < Registry.ExtEnd
    requires Narrow(stem) && '\0' !in stem
    ensures ReadPlain(Plain(pos, size, tag, stem))
            == View(pos, size % TwoTo24, tag, ShortStem(stem) + "." + Registry.Extensions[tag])
  {
    var plain := Plain(pos, size, tag, stem);
    OffsetField(plain, pos);
    SizeField(plain, size);
    NameField(plain, tag, stem);
  }

  lemma OffsetField(p: seq<byte>, pos: nat)
    requires |p| == RecordWidth && pos < TwoTo32
    requires p[..4] == BigEndian32(pos)
    ensures ReadPlain(p).offset == pos
  {
  }

  lemma SizeField(p: seq<byte>, size: nat)
    requires |p| == RecordWidth && size < TwoTo32
    requires p[5..8] == BigEndian32(size)[1..]
    ensures ReadPlain(p).size == size % TwoTo24
  {
    LowBytesOfBigEndian32(size);
  }

  lemma NameField(p: seq<byte>, tag: nat, stem: string)
    requires |p| == RecordWidth && tag < Registry.ExtEnd
    requires Narrow(stem) && '\0' !in stem
    requires p[4] == tag && p[8..16] == StemField(stem)
    ensures ReadPlain(p).tag == tag
    ensures ReadPlain(p).name == ShortStem(stem) + "." + Registry.Extensions[tag]
  {
    assert p[4] % 16 == tag;
    var short := ShortStem(stem);
    assert ToChars(CString(p[8..16])) == short by {
      StemFieldCString(stem);
      ToCharsFromChars(short);
    }
  }

  /** Cutting the stem field at its first NUL leaves the bytes of the short stem. */
  lemma StemFieldCString(stem: string)
    requires Narrow(stem) && '\0' !in stem
    ensures Narrow(ShortStem(stem))
    ensures CString(StemField(stem)) == FromChars(ShortStem(stem))
  {
    var field := StemField(stem);
    var short := ShortStem(stem);
    forall i | 0 <= i < |short|
      ensures field[i] != 0
    {
      assert short[i] == stem[i];
      assert stem[i] != '\0';
    }
    CStringStopsAtNul(field, |short|);
  }

  /** A buffer whose first k bytes are non-zero and whose byte k is zero (or
      absent) holds the C string of those k bytes. */
  lemma {:induction false} CStringStopsAtNul(bs: seq<byte>, k: nat)
    requires k <= |bs|
    requires forall i | 0 <= i < k :: bs[i] != 0
    requires k == |bs| || bs[k] == 0
    ensures CString(bs) == bs[..k]
    decreases k
  {
    if k > 0 {
      CStringStopsAtNul(bs[1..], k - 1);
      assert bs[..k] == [bs[0]] + bs[1..][..k - 1];
    }
  }

  /** The size field is exact precisely below the 24-bit ceiling. */
  lemma SizeExactIffBelowCeiling(pos: nat, size: nat, tag: nat, stem: string)
    requires pos < TwoTo32 && size < TwoTo32
    requires tag < Registry.ExtEnd
    requires Narrow(stem) && '\0' !in stem
    ensures Decode(Encode(pos, size, tag, stem)).size == size <==> size < TwoTo24
  {
    RecordRoundTrip(pos, size, tag, stem);
    ModIsIdentityBelow(size, TwoTo24);
  }

  lemma ModIsIdentityBelow(x: nat, m: nat)
    requires m > 0
    ensures x % m == x <==> x < m
  {
    if x >= m {
      assert x % m < m;
    }
  }
}

=== FILE: registry.dfy ===
/** The extension registry: the fixed table `sdf_extension` that gives each
    type tag its three-letter extension, and the lookup `get_type_from_ext`
    that goes the other way. Tag 0 ("BAD") marks an unrecognised extension. */
module Registry {

  /** `sdf_extension`, indexed by type tag. */
  const Extensions: seq<string> :=
    [ "BAD", "TXT", "JPG", "OGG",
      "RGB", "RAW", "SRF", "MUS",
      "DAT", "SRC", "RUN", "PCX",
      "LAN", "DDD", "RDY", "TIL" ]

  const ExtBad: nat := 0
  const ExtTxt: nat := 1
  const ExtSrc: nat := 9
  /** One past the last tag; the table has this many entries. */
  const ExtEnd: nat := 16

  /** A tag naming a real extension, the only tags the packer writes. */
  predicate IsValidTag(t: nat) {
    ExtBad < t < ExtEnd
  }

  /** The text-like types, the only ones the end-of-line fold touches. */
  predicate IsTextLike(t: nat) {
    t == ExtTxt || t == ExtSrc
  }

  /** The scan of `get_type_from_ext` from table index `i` on: the first
      index whose entry equals `ext`, or ExtEnd when none does. */
  function FirstMatch(ext: string, i: nat): (r: nat)
    requires i <= ExtEnd
    ensures i <= r <= ExtEnd
    ensures r < ExtEnd ==> Extensions[r] == ext
    ensures forall j | i <= j < r :: Extensions[j] != ext
    decreases ExtEnd - i
  {
    if i == ExtEnd then ExtEnd
    else if Extensions[i] == ext then i
    else FirstMatch(ext, i + 1)
  }

  /** `get_type_from_ext`: the tag of `ext`, or ExtBad when the string is not
      one of the fifteen real extensions (the literal "BAD" included). */
  function TypeFromExt(ext: string): (t: nat)
    ensures t < ExtEnd
    ensures t != ExtBad ==> Extensions[t] == ext
    ensures t == ExtBad <==> ext !in Extensions[1..]
  {
    var i := FirstMatch(ext, 0);
    if i < ExtEnd then i else ExtBad
  }

  /** No two table entries are the same string. */
  lemma ExtensionsDistinct()
    ensures forall i, j | 0 <= i < j < ExtEnd :: Extensions[i] != Extensions[j]
  {
  }

  /** Every real tag survives the trip through its extension and back. */
  lemma TypeOfExtension(t: nat)
    requires IsValidTag(t)
    ensures TypeFromExt(Extensions[t]) == t
  {
    ExtensionsDistinct();
  }

  /** Every table entry is three upper-case ASCII letters. */
  lemma ExtensionShape(t: nat)
    requires t < ExtEnd
    ensures |Extensions[t]| == 3
    ensures forall i | 0 <= i < 3 :: 'A' <= Extensions[t][i] <= 'Z'
  {
  }

  /** The placeholder entry is not an extension of its own: it maps to ExtBad
      exactly as an unknown string does. */
  lemma BadIsUnrecognised()
    ensures TypeFromExt(Extensions[ExtBad]) == ExtBad
  {
  }
}

=== FILE: wrappers.dfy ===
/** Failure-carrying values used by the codec: an optional value and a
    success-or-error result. */
module Wrappers {

  datatype Option<+T> = None | Some(value: T)

  datatype Result<+R, +E> = Success(value: R) | Failure(error: E)
}

=== FILE: writer.dfy ===
/** The two writer loops of `pack` (index records, then payloads) walk the
    linked list the scan loop built. That list holds every entry but "." and
    "..", unknown extensions included: the scan links the node before it
    tests the tag. Both loops open with `if (0 == type) continue;`, which
    jumps back to the loop test without advancing the cursor. This module
    models the loop as written, shows that one unknown extension holds it
    forever, and models the evidently intended loop, which skips such nodes
    and writes exactly the entries the rest of the model packs. */
module WriterLoop {
  import opened IndexBuilder
  import Registry
  import FileName

  /** The entries the scan loop links, in listing order: all but "." and "..".
      Every entry it keeps comes from the listing, and every entry of the
      listing other than "." and ".." is kept; NonDotAppend gives the order. */
  function NonDot(dir: seq<DirEntry>): (r: seq<DirEntry>)
    requires Listing(dir)
    ensures |r| <= |dir|
    ensures forall i | 0 <= i < |r| :: !IsDotEntry(r[i].name) && Listable(r[i]) && r[i] in dir
    ensures forall k | 0 <= k < |dir| && !IsDotEntry(dir[k].name) :: dir[k] in r
  {
    if |dir| == 0 then []
    else if IsDotEntry(dir[0].name) then NonDot(dir[1..])
    else [dir[0]] + NonDot(dir[1..])
  }

  /** Filtering two listings one after the other keeps the entries of the
      first, in order, then those of the second. */
  lemma {:induction false} NonDotAppend(d1: seq<DirEntry>, d2: seq<DirEntry>)
    requires Listing(d1) && Listing(d2)
    ensures Listing(d1 + d2)
    ensures NonDot(d1 + d2) == NonDot(d1) + NonDot(d2)
    decreases |d1|
  {
    if |d1| == 0 {
      assert d1 + d2 == d2;
    } else {
      assert (d1 + d2)[0] == d1[0];
      assert (d1 + d2)[1..] == d1[1..] + d2;
      NonDotAppend(d1[1..], d2);
      if !IsDotEntry(d1[0].name) {
        assert ([d1[0]] + NonDot(d1[1..])) + NonDot(d2) == [d1[0]] + (NonDot(d1[1..]) + NonDot(d2));
      }
    }
  }

  /** The node the scan loop links for one entry: the split name, the tag of
      its extension (ExtBad included) and the file's bytes. */
  function Node(e: DirEntry): Item
    requires Listable(e) && !IsDotEntry(e.name)
  {
    var parts := FileName.Scan(e.name).value;
    Item(parts.stem, parts.ext, Registry.TypeFromExt(parts.ext), e.data)
  }

  /** The list the scan loop links: one node per entry but "." and "..", in
      listing order (LinkedNodes). */
  function Linked(dir: seq<DirEntry>): (l: seq<Item>)
    requires Listing(dir)
    ensures |l| == |NonDot(dir)|
  {
    if |dir| == 0 then []
    else if IsDotEntry(dir[0].name) then Linked(dir[1..])
    else [Node(dir[0])] + Linked(dir[1..])
  }

  /** Node i of the linked list is the node of the i-th entry that is not
      "." or "..". */
  lemma {:induction false} LinkedNodes(dir: seq<DirEntry>)
    requires Listing(dir)
    ensures forall i | 0 <= i < |Linked(dir)| :: Linked(dir)[i] == Node(NonDot(dir)[i])
    decreases |dir|
  {
    if |dir| > 0 {
      LinkedNodes(dir[1..]);
      if !IsDotEntry(dir[0].name) {
        var l, rest := Linked(dir), Linked(dir[1..]);
        var nd, ndRest := NonDot(dir), NonDot(dir[1..]);
        assert l == [Node(dir[0])] + rest;
        assert nd == [dir[0]] + ndRest;
        forall i | 0 <= i < |l|
          ensures l[i] == Node(nd[i])
        {
          if i > 0 {
            assert l[i] == rest[i - 1] && nd[i] == ndRest[i - 1];
          }
        }
      }
    }
  }

  /** The state of a writer loop: the node `ientry` points at, and the nodes
      written so far. */
  datatype Loop = Loop(cursor: nat, written: seq<Item>)

  /** One turn of a writer loop as written: a type-0 node takes the
      `continue`, so nothing is written and the cursor stays where it is. */
  function StepAsWritten(l: seq<Item>, s: Loop): Loop
    requires s.cursor < |l|
  {
    if l[s.cursor].tag == Registry.ExtBad then s
    else Loop(s.cursor + 1, s.written + [l[s.cursor]])
  }

  /** The loop as written after at most `k` turns; the loop leaves when the
      cursor reaches the end of the list. */
  function RunAsWritten(l: seq<Item>, s: Loop, k: nat): (r: Loop)
    requires s.cursor <= |l|
    ensures s.cursor <= r.cursor <= |l|
    decreases k
  {
    if k == 0 || s.cursor == |l| then s else RunAsWritten(l, StepAsWritten(l, s), k - 1)
  }

  /** A type-0 node at position j or later bars the way: however many turns
      the loop as written takes from a cursor at or before j, it never gets
      past j, so it never reaches the end of the list. */
  lemma {:induction false} AsWrittenNeverPasses(l: seq<Item>, s: Loop, j: nat, k: nat)
    requires s.cursor <= j < |l|
    requires l[j].tag == Registry.ExtBad
    ensures RunAsWritten(l, s, k).cursor <= j
    decreases k
  {
    if k > 0 {
      AsWrittenNeverPasses(l, StepAsWritten(l, s), j, k - 1);
    }
  }

  /** A directory with one entry whose extension the registry does not
      know (say `notes.md`) keeps the loop as written running forever:
      after any number of turns from the head of the list, the cursor is
      still short of the end. */
  lemma UnknownExtensionHangsPack(dir: seq<DirEntry>, k0: nat, k: nat)
    requires Listing(dir)
    requires k0 < |dir| && !IsDotEntry(dir[k0].name)
    requires Registry.TypeFromExt(FileName.Scan(dir[k0].name).value.ext) == Registry.ExtBad
    ensures RunAsWritten(Linked(dir), Loop(0, []), k).cursor < |Linked(dir)|
  {
    var nd := NonDot(dir);
    assert dir[k0] in nd;
    var j :| 0 <= j < |nd| && nd[j] == dir[k0];
    LinkedNodes(dir);
    assert Linked(dir)[j] == Node(dir[k0]);
    AsWrittenNeverPasses(Linked(dir), Loop(0, []), j, k);
  }

  /** The nodes the intended loop writes, in list order: those whose tag is
      not ExtBad. */
  function WrittenFixed(l: seq<Item>): (w: seq<Item>)
    ensures |w| <= |l|
    ensures forall i | 0 <= i < |w| :: w[i].tag != Registry.ExtBad
  {
    if |l| == 0 then []
    else if l[0].tag == Registry.ExtBad then WrittenFixed(l[1..])
    else [l[0]] + WrittenFixed(l[1..])
  }

  /** One turn of the intended loop: a type-0 node is passed over without
      being written, every other node is written, and the cursor advances. */
  function StepFixed(l: seq<Item>, s: Loop): Loop
    requires s.cursor < |l|
  {
    var w := if l[s.cursor].tag == Registry.ExtBad then s.written else s.written + [l[s.cursor]];
    Loop(s.cursor + 1, w)
  }

  /** The intended loop after at most `k` turns. */
  function RunFixed(l: seq<Item>, s: Loop, k: nat): (r: Loop)
    requires s.cursor <= |l|
    ensures s.cursor <= r.cursor <= |l|
    decreases k
  {
    if k == 0 || s.cursor == |l| then s else RunFixed(l, StepFixed(l, s), k - 1)
  }

  /** From cursor c, with one turn per remaining node, the intended loop
      reaches the end of the list having appended exactly the remaining
      nodes whose tag is known. */
  lemma {:induction false} FixedWritesRest(l: seq<Item>, c: nat, w: seq<Item>, k: nat)
    requires c + k == |l|
    ensures RunFixed(l, Loop(c, w), k) == Loop(|l|, w + WrittenFixed(l[c..]))
    decreases k
  {
    if k > 0 {
      var next := StepFixed(l, Loop(c, w));
      FixedWritesRest(l, c + 1, next.written, k - 1);
      assert l[c..][0] == l[c] && l[c..][1..] == l[c + 1..];
      if l[c].tag != Registry.ExtBad {
        assert (w + [l[c]]) + WrittenFixed(l[c + 1..]) == w + ([l[c]] + WrittenFixed(l[c + 1..]));
      }
    } else {
      assert l[c..] == [];
      assert w + [] == w;
    }
  }

  /** What the intended loop writes over the linked list is exactly the
      selection the index and payload are built from. */
  lemma {:induction false} WrittenFixedIsSelect(dir: seq<DirEntry>)
    requires Listing(dir)
    ensures WrittenFixed(Linked(dir)) == Select(dir)
    decreases |dir|
  {
    if |dir| > 0 {
      WrittenFixedIsSelect(dir[1..]);
      if !IsDotEntry(dir[0].name) {
        var l := Linked(dir);
        assert l[1..] == Linked(dir[1..]);
      }
    }
  }

  /** Run from the head of the linked list with nothing written, the
      intended loop stops at the end of the list having written exactly the
      `filenum` entries the scan counted, in scan order. */
  lemma FixedLoopWritesSelect(dir: seq<DirEntry>)
    requires Listing(dir)
    ensures RunFixed(Linked(dir), Loop(0, []), |Linked(dir)|) == Loop(|Linked(dir)|, Select(dir))
  {
    FixedWritesAll(Linked(dir));
    WrittenFixedIsSelect(dir);
  }

  /** From the head of any list, the intended loop writes WrittenFixed of it. */
  lemma FixedWritesAll(l: seq<Item>)
    ensures RunFixed(l, Loop(0, []), |l|) == Loop(|l|, WrittenFixed(l))
  {
    FixedWritesRest(l, 0, [], |l|);
    assert [] + WrittenFixed(l[0..]) == WrittenFixed(l) by {
      assert l[0..] == l;
    }
  }

  /** On a list with no type-0 node the two loops take the same turns, so
      the loop as written misbehaves only through the `continue`. */
  lemma {:induction false} AsWrittenAgreesWithoutUnknown(l: seq<Item>, s: Loop, k: nat)
    requires s.cursor <= |l|
    requires forall i | 0 <= i < |l| :: l[i].tag != Registry.ExtBad
    ensures RunAsWritten(l, s, k) == RunFixed(l, s, k)
    decreases k
  {
    if k > 0 && s.cursor < |l| {
      AsWrittenAgreesWithoutUnknown(l, StepFixed(l, s), k - 1);
    }
  }
}
